=== FILE: README.md ===
# A verified model of the `cli` declarative command builder

`cli.go` lets a program describe its command line as nested Go blocks:
`Cli(func() { Name(...); Flag("-v", func() { Description(...) }); Command("start", func() { Handle(run)(...) }) })`.
Eleven package-level function variables ("slots": Name, Description,
Version, Flag, Option, Argument, Handle, Default, Value, Command,
Required) are rebound by each builder to closures that write into the
node under construction; nine of them are saved on nine parallel stacks
before a nested block runs and restored after it. Handlers go through a
small state machine (callback kind check, binder arity check,
close-of-command check), and `getOptions` renders the finished tree as
text.

The model has four modules:

- `CliTypes` (`cli_types.dfy`): flags, commands, handlers, the abstract
  callback (`NonFunc | Func(arity)`, in place of reflection), and the
  panics as an `Error(kind, context)` value, where `context` is the
  label `karma.Format` adds.
- `Handlers` (`handlers.dfy`): the three checks and the two handler
  transitions as functions, plus lemmas about any run of `Handle` and
  binder calls.
- `Usage` (`usage.dfy`): `getOptions` as a recursive specification
  function `Options`, and the loop the source runs as the method
  `GetOptions`, proved equal to it. Lemmas give the rendering position by
  position and row by row.
- `Builder` (`builder.dfy`): the slots and stacks as the class `Builder`.
  A slot holds a tagged target naming where its closure writes. The nine
  saved slots are one record field `scope`, and the nine stacks are one
  sequence `frames` of such records, so the stacks always have equal
  lengths. Option and Argument are separate fields. The Go locals
  `result` that the closures capture are cells in two arenas,
  `flagCells` and `commandCells`, indexed by allocation order. Command
  cell 0 is `global`. An author's block is a sequence of `Call` values;
  `Exec` performs one call through whatever the slot is bound to, and a
  panic ends the run with a `Fail`.

Behaviour of the code that the model reproduces and that a reader may
not expect:

- Nested commands do not nest. The Command slot is only ever
  `addCommand(&global.commands)` (cli.go:173), and `newCommand` does not
  rebind it. So a `Command(...)` inside a command block appends to the
  root's list, and every non-root command's `commands` stays empty. The
  class invariant `Valid` (through `CellsOk`) states this.
- Go leaves unspecified whether `append(*to, newCommand(...))`
  (cli.go:205) reads `*to` before or after the call. The model reads it
  after, as the gc compiler does. So commands declared inside a command
  block come before that command in the root's list.
- `Required` only appends a flag reference; it checks nothing.
- A second `Handle(...)` after a binder ran replaces the callback but
  keeps `setArgsCalled`, so the close-of-command check passes
  (`Handlers.ValidateAfterReplay`).
- The Argument slot is never assigned, so calling it is a call of a nil
  function. The model reports `UnboundSlot("Argument")`. Default, Value
  and Required are nil at the top level in the same way.
- After `newCommand` returns, Option still points at that command's
  local (or at the local of a command declared in its block). The root's
  list holds a copy. So a later top-level `Option(...)` writes to a cell
  that is not in the tree. `Builder.Builder.NewCommand` states where
  Option is left.

## Model

| member | source | states |
|---|---|---|
| Handlers.ValidateCallback | cli.go:305-317 | passes exactly when the argument of `Handle` is a function; otherwise an InvalidHandlerKind error with no label |
| Handlers.ValidateCallbackArgs | cli.go:319-337 | passes exactly when the number of arguments equals the callback's parameter count; otherwise ArityMismatch with no label |
| Handlers.ValidateHandler | cli.go:257-274 | passes iff a callback is set and its binder ran; MissingHandler iff no callback (checked first); ArgsNotBound iff callback set but not bound |
| Handlers.SetCallback | cli.go:276-288 | `Handle(cb)` succeeds iff `cb` is a function; on success only the callback changes (to `cb`); on failure InvalidHandlerKind whose context is the handler's label, or none when the label is empty |
| Handlers.BindArgs | cli.go:289-301 | the binder succeeds iff the count matches; on success `setArgsCalled` is true and `args` is replaced; label and callback kept; on failure ArityMismatch whose context is the handler's label, or none when it is empty |
| Handlers.ReplayEffect | cli.go:276-303 | after any run of accepted `Handle`/binder calls: the label is unchanged, a callback is present iff one was or a `Handle` ran, `setArgsCalled` is true iff it was or a binder ran (it never reverts), and `args` are those of the last binder call |
| Handlers.BindNeedsHandle | cli.go:276-303 | in a run where each binder comes from an earlier `Handle`, a binder call implies a `Handle` call |
| Handlers.ValidateAfterReplay | cli.go:257-303 | for a fresh command handler: no `Handle` gives MissingHandler, `Handle` without binder gives ArgsNotBound, any binder call gives a pass |
| Handlers.ReplayFailureContext | cli.go:276-303 | a refused run fails with InvalidHandlerKind or ArityMismatch, and its context is the handler's label (none when the label is empty) |
| Usage.Options | cli.go:121-153 | definition of `getOptions(cmd)`: the joined pieces of `Lines(cmd)`; its properties are stated by Usage.GetOptions, Usage.LinesAt and Usage.SplitJoin |
| Usage.FlagLine | cli.go:123-141 | definition of the text of one flag; its rows are stated by Usage.FlagLineRows |
| Usage.Header | cli.go:147 | definition of a sub-command's header line `name description`; its position in the rendering is stated by Usage.LinesAt |
| Usage.Join | cli.go:152 | definition of `strings.Join(parts, "\n")`; Usage.SplitJoin states that splitting at newlines undoes it |
| Usage.GetOptions | cli.go:121-153 | the loop over flags and sub-commands, with its recursive calls, returns exactly `Options(cmd)` |
| Usage.LinesAt | cli.go:121-153 | the pieces of a rendering: one per flag in declaration order, then for each sub-command its `name description` header followed by its own unindented rendering; `|flags| + 2·|commands|` pieces |
| Usage.CommandLinesAt | cli.go:146-150 | the j-th sub-command contributes its header at offset 2j and its rendering at 2j+1 |
| Usage.SplitJoin | cli.go:152 | joining pieces with `"\n"` is undone by splitting at newlines when no piece contains a newline |
| Usage.FlagLineRows | cli.go:123-141 | a plain flag renders as the row `name description`; an option as `name <value> description`, and with a default a second row of `len(name)+9` spaces then `[default: V]` |
| Usage.Spaces | cli.go:135 | `strings.Repeat(" ", n)`: n characters, all spaces |
| Builder.CheckCommand | cli.go:249-252 | the close of `newCommand`: passes the command through unchanged iff its handler has a callback and was bound; otherwise MissingHandler or ArgsNotBound, with the command's label as context |
| Builder.Wired | cli.go:166-255 | definition of a block that assembles: each call goes through a bound slot (Argument never is), every Handle gets a function, every binder call its arity, nested blocks are wired in the scope their declaration opens (`FlagScope`, `CommandScope`), and every command block calls a binder itself |
| Builder.WiredOption | cli.go:172 | binding Option never stops a block from being wired |
| Builder.WiredShorter | cli.go:176 | every prefix of a wired block is wired |
| Builder.WiredPrefix | cli.go:176 | a wired prefix followed by a wired call is a wired prefix one call longer |
| Builder.WiredCall | cli.go:176 | every call of a wired block is wired, also once Option is bound |
| Builder.TopOpsWellFormed | cli.go:276-303 | in the handler calls a block makes directly, every binder call comes after a `Handle` of a function of the same arity, since `Handle` creates the binder |
| Builder.NoHandleCalls | cli.go:233-245 | a block that never calls Handle itself makes no handler calls of its own, whatever its nested Flag or Command blocks do |
| Builder.CallOpsReplay | cli.go:276-303 | `Handle(cb)` is the callback check; `Handle(cb)(args...)` is the callback check followed, only if it passes, by the binder's arity check |
| Builder.CloseAfterBlock | cli.go:228-255 | for a command whose fresh handler went through exactly its block's own handler calls: no `Handle` gives MissingHandler, `Handle` without a binder call gives ArgsNotBound, both with the command's label, and any binder call lets the command through unchanged |
| Handlers.ReplayAppend | cli.go:276-303 | running two sequences of handler calls one after the other is running their concatenation |
| Builder.Builder.constructor | cli.go:26-50 | the package's initial state: every slot nil, all stacks empty, globals empty, `global` the zero command |
| Builder.Builder.PushStack | cli.go:366-376 | each stack grows by exactly one entry, the current value of its slot; slots, Option, Argument and all cells unchanged |
| Builder.Builder.PopStack | cli.go:378-400 | on non-empty stacks: the nine slots take the top values and each stack loses exactly its top; Option, Argument and all cells unchanged |
| Builder.Builder.PushPop | cli.go:366-400 | push then pop restores the nine slots and the stacks, and leaves Option, Argument and all cells as they were |
| Builder.Builder.SetText | cli.go:86-94 | a Name/Description/Version call writes its text into exactly the global or cell the slot names and nothing else; a nil slot fails |
| Builder.Builder.SetFlagDescription | cli.go:216 | the flag's description becomes the text; no other field or cell changes |
| Builder.Builder.SetCommandDescription | cli.go:235 | the command's description becomes the text; no other field or cell changes |
| Builder.Builder.SetDefault | cli.go:96-100 | the flag's default becomes the value; no other field or cell changes |
| Builder.Builder.SetValue | cli.go:96-100 | the flag's value becomes the value; no other field or cell changes |
| Builder.Builder.AddRequired | cli.go:238-240 | the flag reference is appended at the end of the command's `required`; nothing else changes |
| Builder.Builder.PutHandler | cli.go:287-300 | the handler the target names becomes the new handler, and only that cell changes |
| Builder.Builder.SetHandle | cli.go:276-288 | `Handle(cb)` through a slot: passes iff `cb` is a function; then the target's handler gets `cb` as its callback and nothing else changes: not the target cell's other fields, not any other cell, not the globals, slots or stacks. A refusal is SetCallback's error and leaves every cell unchanged |
| Builder.Builder.BindHandle | cli.go:289-301 | the binder through a slot: passes iff the count matches; then the target's handler is marked bound with the new arguments and nothing else changes, as for SetHandle. A refusal leaves every cell unchanged |
| Builder.Builder.OpenFlag | cli.go:209-219 | a new flag cell with the given name and kind and empty fields; one frame pushed; Description, Default, Value and Handle now write into that flag, and every other slot, Option included, is kept |
| Builder.Builder.OpenCommand | cli.go:228-243 | a new command cell labelled `command "<name>"`; one frame pushed; Description, Handle, Required, Flag and Option now write into that command, while Name, Version, Default, Value and Command are kept |
| Builder.Builder.NewFlag | cli.go:209-226 | newFlag itself cannot fail: it succeeds when its block is wired in the flag's scope (an empty block always is) and, when Option is bound, only then. The new flag is the next cell and keeps its name and kind; after its block the nine slots and stacks are as before and Option is unchanged or on a command declared inside the block. The new flag's handler is the empty handler after exactly the block's own top-level Handle and binder calls |
| Builder.Builder.AddFlag | cli.go:185-197 | succeeds when the flag's block is wired (an empty block always is) and, when Option is bound, only then; then exactly one flag, the new one, is appended at the end of the target collection, and the collection as the call found it is a prefix of the result; the appended flag is the new cell, with its name, its kind and the handler the block's own Handle and binder calls gave it |
| Builder.Builder.AppendFlag | cli.go:193 | `*to = append(*to, unit)`: the command's flag list gains the flag cell as it now stands at its end, and nothing else changes |
| Builder.Builder.NewCommand | cli.go:228-255 | the block runs to its end iff it is wired in the command's scope (an empty block always is), and the command passes iff in addition the block calls a binder itself. When the block runs to its end, the new command's handler is its fresh labelled handler after exactly the block's own Handle and binder calls, and the result is the close check of the new cell: no `Handle` gives MissingHandler, `Handle` without a binder call gives ArgsNotBound, both with `command "<name>"` as context. A refused Handle or binder call of the block fails it. On success the nine slots and stacks are as before, Option is left on this command or on one declared in its block, and the returned command is the new cell, named, labelled and closed. No handler that existed before is touched |
| Builder.Builder.AddCommand | cli.go:199-207 | passes iff the command's block is wired and calls a binder itself; then the new command's cell is appended at the end of the root's list. A refused command leaves the list as the block left it |
| Builder.Builder.Exec | cli.go:26-50 | one call passes when it is wired for the current slot bindings and, when Option is bound, only then. It keeps the class invariant and only grows the arenas. Only a Handle call touches the handler the Handle slot names: on success that handler has gone through exactly the call's handler calls, and every other handler that existed is untouched. On success the nine slots and stacks are as they were and Option stays or moves to a new command |
| Builder.Builder.ExecWrite | cli.go:86-100 | a Name, Description, Version, Default, Value or Required call passes iff its slot is bound; a failure changes no data; the slots, stacks and every handler are kept |
| Builder.Builder.ExecText | cli.go:86-94 | a Name, Description or Version call passes iff its slot is bound. The text then lands in exactly the target the slot names (one of the three globals, or the description of one flag or one command cell); every other global, every other cell and every other field are as before, and a failure changes no data |
| Builder.Builder.ExecField | cli.go:96-100 | a Default or Value call passes iff its slot is bound, and then sets exactly that field of the flag the slot names, all other flag cells, every command cell and the globals unchanged. A Required call (cli.go:238-240) passes iff its slot is bound and then appends the reference to that command's list and nothing else. A failure changes no data |
| Builder.Builder.ExecHandle | cli.go:276-303 | a Handle call passes iff the Handle slot is bound and the handler accepts the call's handler calls, that is iff `cb` is a function and a binder call gets its arity. On success the handler it names has gone through exactly those calls and is the only change: the other cells, the globals, the slots and the stacks are as before. A refused `Handle(cb)` changes no data |
| Builder.Builder.HandleInto | cli.go:276-303 | through a bound Handle slot, a Handle call passes iff replaying its handler calls on the named handler succeeds; then that handler is the replay's result, written back into its cell and nowhere else |
| Builder.Builder.SetAndBind | cli.go:276-303 | `Handle(cb)(args...)` passes iff `cb` is a function and `args` has its arity; then the handler has the callback, is marked bound and holds `args`, and only its cell changed. A non-function is refused with the error of `validateCallback` and changes no data |
| Builder.Builder.ExecFlag | cli.go:185-197 | a Flag or Option call passes when its slot is bound and its block is wired in the flag's scope, and, when Option is bound, only then; Argument always fails as a nil slot. On success a new flag named after the call, of the call's kind, is appended at the end of the collection the slot names; the nine slots and stacks are restored; no existing handler changes |
| Builder.Builder.ExecCommand | cli.go:199-207 | a Command call passes iff the Command slot is bound, the block is wired in the command's scope and calls a binder itself; then the new command's cell, named after the call, is appended at the end of the root's list; no existing handler changes |
| Builder.Builder.Run | cli.go:176 | a wired block passes (an empty one always does), and when Option is bound only a wired block passes. When a block passes, the handler the Handle slot names has gone through exactly the block's own Handle and binder calls, in order (`TopOps`), and no other handler that existed is touched. The invariant holds, and on success the nine slots and stacks are as before and Option stays or moves to a new command |
| Builder.Builder.RunStep | cli.go:176 | the last call of a block, after the others passed: a failure shows that the block is not wired; a pass extends to one more call what Run states of the calls before it |
| Builder.Builder.Cli | cli.go:166-177 | binds Version, Description and Name to the globals, Flag and Option to the root's flags, Command to the root's list and Handle to the root's handler, then runs the block. It passes iff the block is wired for those bindings (an empty block always is). On success the stacks are unchanged and the root's handler has gone through exactly the top-level block's own Handle and binder calls |
| Builder.Assemble | cli.go:166-255 | an assembly from the initial state passes iff the block is wired for the slots Cli binds: every call goes through a bound slot, every Handle gets a function and every binder call its arity, and every command block calls a binder itself. Then the root's handler has gone through exactly the top-level Handle and binder calls. In any assembled tree the root has no label, every command in its list passed its close check and has no sub-commands, and every flag anywhere has an empty label |

## Left out

- `PrintVersion`, `PrintUsage`, `getUsage` and the printer closure `Cli` returns (cli.go:102-119, 178-182): these only print.
- `getFuncName`, `getFuncArgs`, `getArgsTypes` (cli.go:339-364): these only build message text. Callbacks are `Callback` values with an arity.
- Error texts: an error is its kind plus the optional label, not the `fmt.Errorf`/`karma.Format` string.
- `validateCallback(nil)`: `reflect.TypeOf(nil).Kind()` panics in Go. `Callback` has no nil value.
- Builder.Builder.SetDefault: the default is kept as the text `%v` prints for it, and `Default(nil)` (which Go stores as "no default") is not modelled.
- Usage.FlagLine, Usage.FlagLineRows: Go's `len` counts bytes, while the model counts characters. The widths agree for ASCII names only.
- Binders kept and called after their `Handle` call's block has ended are not modelled. A binder is called right after its `Handle` (`HandleBindCall`) or never (`HandleCall`).
- Closure identity: a slot is modelled by the cell it writes to. A write through a stale Option target goes to a cell that is no longer in the tree. The model keeps such cells but does not state what they hold.
- Builder.Builder.NewFlag, Builder.Builder.NewCommand, Builder.Builder.AddFlag, Builder.Builder.AddCommand, Builder.Builder.Exec, Builder.Builder.Run, Builder.Builder.Cli: after a failure they state only the class invariant, growth of the arenas and which handlers may have changed. In Go the panic unwinds without `popStack`, and the program stops.
- Builder.Builder.NewCommand: when the block fails, it does not say which error is reported. The block's first failing call decides that, and it may come from a nested declaration before any refused Handle or binder call. The kinds a refused handler call gives are stated by Handlers.ReplayFailureContext.
- Builder.Builder.Run: its contract does not state that the calls run in order or that the first failure ends the block. It states this only for the handler the Handle slot names (through `TopOps`). The body runs the calls in order and returns at the first failure.
- Builder.Builder.Exec: the contract does not relate the resulting tree to the call for the non-handler fields. That relation is stated per kind of call, by ExecText, ExecField, ExecHandle, ExecFlag and ExecCommand.
- Builder.Builder.NewFlag, Builder.Builder.NewCommand, Builder.Builder.Cli, Builder.Assemble: above one call, the contents of the node a block builds are stated only for its handler. Its description, default, value, required list and flag and command collections are not related to the block, and neither are the counts of the tree's flags and commands. A nested block writes through every slot it does not rebind, so an inner Default, Flag, Option or Command call lands on an enclosing flag or command, and Option moves to every command declared. Stating these needs a second kept-fields invariant threaded through every builder method.
- Builder.Builder.Run, Builder.Builder.RunStep, Builder.Builder.Exec, Builder.Builder.ExecFlag, Builder.Builder.NewFlag, Builder.Builder.AddFlag: when Option is nil as the block starts, they state only that a wired block passes, not the converse. A Command declared inside a Flag block binds Option, so a later Option call in that block passes although `Wired` counts Option as nil there. Cli binds Option before its block runs, so Cli, Assemble, NewCommand, AddCommand and ExecCommand state both directions.
- The dead `if to == nil` branches of `addFlag`/`addCommand` (cli.go:187-189, 201-203) become the precondition that the target is bound.
- `a.go` and `main.go` are example programs, not part of this model. The commented-out `indent` (cli.go:155-164) is not code.

=== FILE: builder.dfy ===
/**
 * The declarative builder (cli.go:26-50, 166-255, 276-303, 366-400).
 *
 * Go keeps eleven package-level function variables ("slots") that an
 * author's block calls: Name, Description, Version, Flag, Option,
 * Argument, Handle, Default, Value, Command, Required. Each builder
 * saves nine of them (all but Option and Argument) on nine parallel
 * stacks, rebinds some slots to closures writing into the node it is
 * building, runs the block and restores the nine. Here a slot holds a
 * tagged target saying where its closure writes, the nine saved slots
 * form one record `scope`, the nine stacks are one sequence of such
 * records (so their lengths are equal by construction), and the nodes
 * under construction (the Go locals the closures capture) live in two
 * arenas of cells indexed by the order of their allocation; command
 * cell 0 is the root `global`.
 */
module Builder {
  import opened CliTypes
  import Handlers

  /** Where a Name, Description or Version slot writes (setVersion, setString). */
  datatype TextTarget =
    | NoText
    | GlobalName
    | GlobalDescription
    | GlobalVersion
    | FlagDescription(flag: nat)
    | CommandDescription(cmd: nat)

  /** The collection a Flag, Option or Argument slot appends to (addFlag's `to`). */
  datatype FlagsTarget = NoFlags | CommandFlags(cmd: nat)

  /** The collection the Command slot appends to: addCommand is only ever built for `global.commands`. */
  datatype CommandsTarget = NoCommands | RootCommands

  /** The handler a Handle slot writes (setHandle's `handler`). */
  datatype HandleTarget = NoHandle | FlagHandler(flag: nat) | CommandHandler(cmd: nat)

  datatype DefaultTarget = NoDefault | FlagDefault(flag: nat)

  datatype ValueTarget = NoValue | FlagValue(flag: nat)

  /** The command whose `required` list the Required slot appends to. */
  datatype RequiredTarget = NoRequired | CommandRequired(cmd: nat)

  /** One entry of each of the nine stacks pushStack fills; Option and Argument have none. */
  datatype Frame = Frame(
    name: TextTarget,
    description: TextTarget,
    version: TextTarget,
    flag: FlagsTarget,
    handle: HandleTarget,
    default: DefaultTarget,
    value: ValueTarget,
    command: CommandsTarget,
    required: RequiredTarget)

  /**
   * One call an author's block makes. A block is a sequence of them. A
   * flag returned by Flag(...) is referred to by its allocation number.
   * `HandleBindCall(cb, args)` is `Handle(cb)(args...)`; `HandleCall(cb)`
   * is `Handle(cb)` with the binder dropped.
   */
  datatype Call =
    | NameCall(text: string)
    | DescriptionCall(text: string)
    | VersionCall(text: string)
    | FlagCall(flagName: string, block: seq<Call>)
    | OptionCall(flagName: string, block: seq<Call>)
    | ArgumentCall(flagName: string, block: seq<Call>)
    | HandleCall(cb: Callback)
    | HandleBindCall(cb: Callback, args: seq<Any>)
    | DefaultCall(defaultText: string)
    | ValueCall(v: Any)
    | CommandCall(commandName: string, block: seq<Call>)
    | RequiredCall(ref: nat)

  /** The slot a Name, Description or Version call writes through. */
  function TextSlot(call: Call, f: Frame): (t: TextTarget)
    requires call.NameCall? || call.DescriptionCall? || call.VersionCall?
    ensures call.NameCall? ==> t == f.name
    ensures call.DescriptionCall? ==> t == f.description
    ensures call.VersionCall? ==> t == f.version
  {
    match call
    case NameCall(_) => f.name
    case DescriptionCall(_) => f.description
    case VersionCall(_) => f.version
  }

  predicate TextOk(t: TextTarget, nf: nat, nc: nat)
  {
    (t.FlagDescription? ==> t.flag < nf) && (t.CommandDescription? ==> t.cmd < nc)
  }

  predicate FlagsOk(t: FlagsTarget, nc: nat)
  {
    t.CommandFlags? ==> t.cmd < nc
  }

  predicate HandleOk(t: HandleTarget, nf: nat, nc: nat)
  {
    (t.FlagHandler? ==> t.flag < nf) && (t.CommandHandler? ==> t.cmd < nc)
  }

  /** Every target of a frame names a cell that exists. */
  predicate FrameOk(f: Frame, nf: nat, nc: nat)
  {
    && TextOk(f.name, nf, nc) && TextOk(f.description, nf, nc) && TextOk(f.version, nf, nc)
    && FlagsOk(f.flag, nc)
    && HandleOk(f.handle, nf, nc)
    && (f.default.FlagDefault? ==> f.default.flag < nf)
    && (f.value.FlagValue? ==> f.value.flag < nf)
    && (f.required.CommandRequired? ==> f.required.cmd < nc)
  }

  predicate FramesOk(frames: seq<Frame>, nf: nat, nc: nat)
  {
    forall i :: 0 <= i < |frames| ==> FrameOk(frames[i], nf, nc)
  }

  lemma FramesOkPrefix(frames: seq<Frame>, k: nat, nf: nat, nc: nat)
    requires FramesOk(frames, nf, nc) && k <= |frames|
    ensures FramesOk(frames[..k], nf, nc)
  {
    forall i | 0 <= i < k
      ensures FrameOk(frames[..k][i], nf, nc)
    {
      assert frames[..k][i] == frames[i];
    }
  }

  /** Targets stay valid when the arenas grow. */
  lemma FramesOkWider(frames: seq<Frame>, nf: nat, nc: nat, nf': nat, nc': nat)
    requires FramesOk(frames, nf, nc) && nf <= nf' && nc <= nc'
    ensures FramesOk(frames, nf', nc')
  {
    forall i | 0 <= i < |frames|
      ensures FrameOk(frames[i], nf', nc')
    {
      assert FrameOk(frames[i], nf, nc);
    }
  }

  /**
   * A command as newCommand hands it over: labelled after its name, its
   * handler past the close-of-command check, and no sub-commands (no
   * slot ever appends to a non-root command's `commands`).
   */
  predicate Closed(c: Command)
  {
    && c.handler.parent == CommandLabel(c.name)
    && Handlers.ValidateHandler(c.handler).Pass?
    && c.commands == []
    && (forall k :: 0 <= k < |c.flags| ==> c.flags[k].handler.parent == "")
  }

  /**
   * What the arenas always satisfy: the root and every flag carry an
   * empty label, every other command cell carries its own label and no
   * sub-commands, and every command in the root's list is closed.
   */
  predicate CellsOk(fs: seq<Flag>, cs: seq<Command>)
  {
    && |cs| > 0
    && cs[0].handler.parent == ""
    && (forall i :: 0 < i < |cs| ==> cs[i].commands == [] && cs[i].handler.parent == CommandLabel(cs[i].name))
    && (forall j :: 0 <= j < |cs[0].commands| ==> Closed(cs[0].commands[j]))
    && (forall i :: 0 <= i < |fs| ==> fs[i].handler.parent == "")
    && (forall i, j :: 0 <= i < |cs| && 0 <= j < |cs[i].flags| ==> cs[i].flags[j].handler.parent == "")
  }

  /** A fresh, labelled command cell with no collections keeps the arenas consistent. */
  lemma AppendCommandCell(fs: seq<Flag>, cs: seq<Command>, c: Command)
    requires CellsOk(fs, cs)
    requires c.handler.parent == CommandLabel(c.name) && c.flags == [] && c.commands == []
    ensures CellsOk(fs, cs + [c])
  {
    var cs' := cs + [c];
    assert cs'[0] == cs[0];
    forall i, j | 0 <= i < |cs'| && 0 <= j < |cs'[i].flags|
      ensures cs'[i].flags[j].handler.parent == ""
    {
      assert i < |cs| && cs'[i] == cs[i];
    }
  }

  /**
   * Arenas only grow, a cell keeps its name (and a flag its kind), and
   * the collections of a command only grow at the end.
   */
  ghost predicate Grows(fa: seq<Flag>, ca: seq<Command>, fb: seq<Flag>, cb: seq<Command>)
  {
    && |fa| <= |fb| && |ca| <= |cb|
    && (forall i :: 0 <= i < |fa| ==> fa[i].name == fb[i].name && fa[i].option == fb[i].option)
    && (forall i :: 0 <= i < |ca| ==>
          && ca[i].name == cb[i].name
          && ca[i].flags <= cb[i].flags
          && ca[i].commands <= cb[i].commands
          && ca[i].required <= cb[i].required)
  }

  lemma GrowsTrans(fa: seq<Flag>, ca: seq<Command>, fb: seq<Flag>, cb: seq<Command>, fc: seq<Flag>, cc: seq<Command>)
    requires Grows(fa, ca, fb, cb) && Grows(fb, cb, fc, cc)
    ensures Grows(fa, ca, fc, cc)
  {
  }

  /**
   * newCommand's close (cli.go:249-252): the handler check, whose
   * failure is reported with the command's label as context.
   */
  function CheckCommand(c: Command): (r: Result<Command>)
    ensures r.Success? <==> c.handler.callback.Some? && c.handler.setArgsCalled
    ensures r.Success? ==> r.value == c
    ensures r.Failure? ==> r.error.context == Some(c.handler.parent)
    ensures r.Failure? ==> (r.error.kind == MissingHandler <==> c.handler.callback.None?)
    ensures r.Failure? ==> (r.error.kind == ArgsNotBound <==> c.handler.callback.Some?)
  {
    match Handlers.ValidateHandler(c.handler)
    case Fail(e) => Failure(Error(e.kind, Some(c.handler.parent)))
    case Pass => Success(c)
  }

  function Unbound(slot: string): Outcome
  {
    Fail(Error(UnboundSlot(slot), None))
  }

  /**
   * The handler calls one call of a block makes through the Handle slot
   * itself: `Handle(cb)`, and for `Handle(cb)(args...)` also the
   * binder, which exists only when `cb` is a function.
   */
  function CallOps(call: Call): seq<Handlers.HandlerOp>
  {
    match call
    case HandleCall(cb) => [Handlers.HandleOp(cb)]
    case HandleBindCall(cb, args) =>
      if cb.Func? then [Handlers.HandleOp(cb), Handlers.BindOp(cb.arity, args)] else [Handlers.HandleOp(cb)]
    case _ => []
  }

  /**
   * The handler calls a block makes directly, in order; those inside
   * nested Flag, Option and Command blocks go to other handlers.
   */
  function TopOps(block: seq<Call>): seq<Handlers.HandlerOp>
    decreases |block|
  {
    if block == [] then [] else TopOps(block[..|block| - 1]) + CallOps(block[|block| - 1])
  }

  /** Which of the nine saved slots are bound (non-nil). */
  datatype Bound = Bound(
    name: bool, description: bool, version: bool, flag: bool, handle: bool,
    default: bool, value: bool, command: bool, required: bool)

  function BoundOf(f: Frame): Bound
  {
    Bound(!f.name.NoText?, !f.description.NoText?, !f.version.NoText?, f.flag.CommandFlags?,
          !f.handle.NoHandle?, f.default.FlagDefault?, f.value.FlagValue?, f.command.RootCommands?,
          f.required.CommandRequired?)
  }

  /** Before Cli runs every slot is nil. */
  const NothingBound: Bound := Bound(false, false, false, false, false, false, false, false, false)

  /** The saved slots Cli binds (cli.go:167-174); it binds Option too. */
  function CliScope(b: Bound): Bound
  {
    b.(name := true, description := true, version := true, flag := true, handle := true, command := true)
  }

  /** The slots newFlag binds for its block (cli.go:216-219). */
  function FlagScope(b: Bound): Bound
  {
    b.(description := true, default := true, value := true, handle := true)
  }

  /** The saved slots newCommand binds for its block (cli.go:235-243); it binds Option too. */
  function CommandScope(b: Bound): Bound
  {
    b.(description := true, handle := true, required := true, flag := true)
  }

  /**
   * A block every call of which goes through a bound slot, with the
   * saved slots bound as `b` says and Option bound iff `option`: every
   * Handle gets a function, every binder call the right number of
   * arguments, every nested block is wired in the scope its declaration
   * opens, and every nested command's block calls a binder itself.
   * Argument is never bound, so no wired block calls it.
   */
  predicate Wired(block: seq<Call>, b: Bound, option: bool)
    decreases block
  {
    forall i :: 0 <= i < |block| ==> CallWired(block[i], b, option)
  }

  predicate CallWired(call: Call, b: Bound, option: bool)
    decreases call
  {
    match call
    case NameCall(_) => b.name
    case DescriptionCall(_) => b.description
    case VersionCall(_) => b.version
    case DefaultCall(_) => b.default
    case ValueCall(_) => b.value
    case RequiredCall(_) => b.required
    case HandleCall(cb) => b.handle && cb.Func?
    case HandleBindCall(cb, args) => b.handle && cb.Func? && |args| == cb.arity
    case FlagCall(_, blk) => b.flag && Wired(blk, FlagScope(b), option)
    case OptionCall(_, blk) => option && Wired(blk, FlagScope(b), option)
    case ArgumentCall(_, _) => false
    case CommandCall(_, blk) => b.command && Wired(blk, CommandScope(b), true) && Handlers.HasBind(TopOps(blk))
  }

  /** Binding Option only helps: a block wired without it stays wired once it is bound. */
  lemma {:induction false} WiredOption(block: seq<Call>, b: Bound)
    requires Wired(block, b, false)
    ensures Wired(block, b, true)
    decreases block
  {
    forall i | 0 <= i < |block|
      ensures CallWired(block[i], b, true)
    {
      CallWiredOption(block[i], b);
    }
  }

  lemma {:induction false} CallWiredOption(call: Call, b: Bound)
    requires CallWired(call, b, false)
    ensures CallWired(call, b, true)
    decreases call
  {
    if call.FlagCall? {
      WiredOption(call.block, FlagScope(b));
    }
  }

  /** Each call of a wired block is wired, and stays so once Option is bound. */
  lemma WiredCall(block: seq<Call>, b: Bound, option: bool, bound: bool, i: nat)
    requires i < |block| && (option ==> bound)
    ensures Wired(block, b, option) ==> CallWired(block[i], b, bound)
  {
    if Wired(block, b, option) && !option && bound {
      CallWiredOption(block[i], b);
    }
  }

  /** A wired prefix followed by a wired call is a longer wired prefix. */
  lemma WiredPrefix(block: seq<Call>, b: Bound, option: bool, i: nat)
    requires i < |block| && Wired(block[..i], b, option) && CallWired(block[i], b, option)
    ensures Wired(block[..i + 1], b, option)
  {
    var longer := block[..i + 1];
    forall j | 0 <= j < |longer|
      ensures CallWired(longer[j], b, option)
    {
      if j < i {
        assert longer[j] == block[..i][j];
      }
    }
  }

  /** A prefix of a wired block is wired. */
  lemma WiredShorter(block: seq<Call>, b: Bound, option: bool, n: nat)
    requires n <= |block|
    ensures Wired(block, b, option) ==> Wired(block[..n], b, option)
  {
    if Wired(block, b, option) {
      var shorter := block[..n];
      forall j | 0 <= j < |shorter|
        ensures CallWired(shorter[j], b, option)
      {
        assert shorter[j] == block[j];
      }
    }
  }

  lemma TopOpsWellFormed(block: seq<Call>)
    ensures Handlers.WellFormed(TopOps(block))
    decreases |block|
  {
    if block != [] {
      TopOpsWellFormed(block[..|block| - 1]);
      var ops := CallOps(block[|block| - 1]);
      assert Handlers.WellFormed(ops) by {
        if |ops| == 2 { assert ops[0] == Handlers.HandleOp(Func(ops[1].arity)); }
      }
      Handlers.WellFormedAppend(TopOps(block[..|block| - 1]), ops);
    }
  }

  /**
   * The handler calls of `Handle(cb)` are the callback check; those of
   * `Handle(cb)(args...)` are the callback check and, if it passes, the
   * arity check of the binder.
   */
  lemma CallOpsReplay(h: Handler, call: Call)
    requires call.HandleCall? || call.HandleBindCall?
    ensures Handlers.Replay(h, CallOps(call)).Success? <==>
      call.cb.Func? && (call.HandleBindCall? ==> |call.args| == call.cb.arity)
    ensures call.HandleCall? || call.cb.NonFunc? ==> Handlers.Replay(h, CallOps(call)) == Handlers.SetCallback(h, call.cb)
    ensures call.HandleBindCall? && call.cb.Func? ==>
      Handlers.Replay(h, CallOps(call)) ==
        match Handlers.SetCallback(h, call.cb)
        case Failure(e) => Failure(e)
        case Success(h') => Handlers.BindArgs(h', call.cb.arity, call.args)
  {
    if call.HandleBindCall? && call.cb.Func? {
      var bind := Handlers.BindOp(call.cb.arity, call.args);
      assert CallOps(call)[1..] == [bind];
      match Handlers.SetCallback(h, call.cb)
      case Failure(e) =>
      case Success(h') =>
        assert Handlers.Replay(h, CallOps(call)) == Handlers.Replay(h', [bind]);
        match Handlers.BindArgs(h', call.cb.arity, call.args)
        case Failure(e) =>
        case Success(h'') => assert Handlers.Replay(h', [bind]) == Handlers.Replay(h'', []);
    }
  }

  /**
   * A block that never calls Handle itself makes no handler calls of its
   * own, whatever its nested declarations do.
   */
  lemma {:induction false} NoHandleCalls(block: seq<Call>)
    requires forall i :: 0 <= i < |block| ==> !block[i].HandleCall? && !block[i].HandleBindCall?
    ensures TopOps(block) == []
    decreases |block|
  {
    if block != [] {
      NoHandleCalls(block[..|block| - 1]);
    }
  }

  /** Replaying the handler calls of one more call of a block continues the replay of the calls before it. */
  lemma TopOpsStep(h: Handler, block: seq<Call>, i: nat)
    requires i < |block| && Handlers.Replay(h, TopOps(block[..i])).Success?
    ensures Handlers.Replay(h, TopOps(block[..i + 1])) ==
      Handlers.Replay(Handlers.Replay(h, TopOps(block[..i])).value, CallOps(block[i]))
  {
    assert block[..i + 1][..i] == block[..i];
    assert TopOps(block[..i + 1]) == TopOps(block[..i]) + CallOps(block[i]);
    Handlers.ReplayAppend(h, TopOps(block[..i]), CallOps(block[i]));
  }

  /**
   * The close of a command whose fresh handler went through exactly the
   * handler calls of its block: no `Handle` gives MissingHandler, a
   * `Handle` whose binder never ran gives ArgsNotBound, both labelled
   * with the command's label; any binder call lets the command through.
   */
  lemma CloseAfterBlock(c: Command, block: seq<Call>)
    requires Handlers.Replay(Handler(CommandLabel(c.name), None, false, []), TopOps(block)).Success?
    requires c.handler == Handlers.Replay(Handler(CommandLabel(c.name), None, false, []), TopOps(block)).value
    ensures !Handlers.HasHandle(TopOps(block)) ==>
      CheckCommand(c) == Failure(Error(MissingHandler, Some(CommandLabel(c.name))))
    ensures Handlers.HasHandle(TopOps(block)) && !Handlers.HasBind(TopOps(block)) ==>
      CheckCommand(c) == Failure(Error(ArgsNotBound, Some(CommandLabel(c.name))))
    ensures Handlers.HasBind(TopOps(block)) ==> CheckCommand(c) == Success(c)
  {
    TopOpsWellFormed(block);
    Handlers.ReplayEffect(Handler(CommandLabel(c.name), None, false, []), TopOps(block));
    Handlers.ValidateAfterReplay(CommandLabel(c.name), TopOps(block));
  }

  /**
   * Every handler that existed in the old arenas is as it was, except
   * the one `except` names.
   */
  ghost predicate HandlersKept(fa: seq<Flag>, ca: seq<Command>, fb: seq<Flag>, cb: seq<Command>, except: HandleTarget)
  {
    && |fa| <= |fb| && |ca| <= |cb|
    && (forall f :: 0 <= f < |fa| && except != FlagHandler(f) ==> fb[f].handler == fa[f].handler)
    && (forall c :: 0 <= c < |ca| && except != CommandHandler(c) ==> cb[c].handler == ca[c].handler)
  }

  /**
   * Two steps that each keep all handlers but one: together they keep
   * all but the first one's, when the second touches the same handler,
   * none, or one that did not exist before the first step.
   */
  lemma HandlersKeptTrans(fa: seq<Flag>, ca: seq<Command>, fb: seq<Flag>, cb: seq<Command>,
                          fc: seq<Flag>, cc: seq<Command>, t: HandleTarget, u: HandleTarget)
    requires HandlersKept(fa, ca, fb, cb, t) && HandlersKept(fb, cb, fc, cc, u)
    requires u == t || u.NoHandle? || (u.FlagHandler? && u.flag >= |fa|) || (u.CommandHandler? && u.cmd >= |ca|)
    ensures HandlersKept(fa, ca, fc, cc, t)
  {
  }

  /** Writing one element twice leaves only the second write. */
  lemma ReplaceTwice<T>(s: seq<T>, i: nat, x: T, y: T)
    requires i < |s|
    ensures s[i := x][i := y] == s[i := y]
  {
  }

  class Builder {
    // The eleven slots: the nine pushStack saves, then Option and Argument.
    var scope: Frame
    var option: FlagsTarget
    var argument: FlagsTarget

    // The nine stacks, one frame per pushStack.
    var frames: seq<Frame>

    // Package globals and the cells the slots' closures write through.
    var globalName: string
    var globalDescription: string
    var globalVersion: string
    var flagCells: seq<Flag>
    var commandCells: seq<Command>

    ghost predicate Valid()
      reads this
    {
      && CellsOk(flagCells, commandCells)
      && FrameOk(scope, |flagCells|, |commandCells|)
      && FlagsOk(option, |commandCells|)
      && argument.NoFlags?
      && FramesOk(frames, |flagCells|, |commandCells|)
    }

    /** Everything a scope switch leaves alone: the globals and the cells. */
    ghost function Data(): (string, string, string, seq<Flag>, seq<Command>)
      reads this
    {
      (globalName, globalDescription, globalVersion, flagCells, commandCells)
    }

    /** The nine saved slots, the stacks and Option are as they were. */
    twostate predicate SlotsKept()
      reads this
    {
      scope == old(scope) && frames == old(frames) && option == old(option)
    }

    /**
     * Option is where it was, or on the flags of a command allocated
     * since the old state: newCommand leaves it there.
     */
    twostate predicate OptionStaysOrMoves()
      reads this
    {
      option == old(option) || (option.CommandFlags? && old(|commandCells|) <= option.cmd)
    }

    /** The three package globals are as they were. */
    twostate predicate GlobalsKept()
      reads this
    {
      globalName == old(globalName) && globalDescription == old(globalDescription) && globalVersion == old(globalVersion)
    }

    /** Every handler of the old cells is as it was, except the one `except` names. */
    twostate predicate HandlersUntouched(except: HandleTarget)
      reads this
    {
      HandlersKept(old(flagCells), old(commandCells), flagCells, commandCells, except)
    }

    /** The cells only grew since the old state. */
    twostate predicate CellsGrew()
      reads this
    {
      Grows(old(flagCells), old(commandCells), flagCells, commandCells)
    }

    /** The package state before anything runs: every slot nil, stacks empty, `global` zero. */
    constructor ()
      ensures Valid()
      ensures scope == Frame(NoText, NoText, NoText, NoFlags, NoHandle, NoDefault, NoValue, NoCommands, NoRequired)
      ensures option == NoFlags && argument == NoFlags && frames == []
      ensures globalName == "" && globalDescription == "" && globalVersion == ""
      ensures flagCells == [] && commandCells == [EmptyCommand]
    {
      scope := Frame(NoText, NoText, NoText, NoFlags, NoHandle, NoDefault, NoValue, NoCommands, NoRequired);
      option, argument := NoFlags, NoFlags;
      frames := [];
      globalName, globalDescription, globalVersion := "", "", "";
      flagCells, commandCells := [], [EmptyCommand];
    }

    /** pushStack: each of the nine stacks grows by the current slot value. */
    method PushStack()
      requires Valid()
      modifies this
      ensures Valid()
      ensures frames == old(frames) + [old(scope)]
      ensures scope == old(scope) && option == old(option) && argument == old(argument)
      ensures Data() == old(Data())
    {
      frames := frames + [scope];
    }

    /**
     * popStack: the nine slots take the values on top of their stacks and
     * each stack loses its top. Option and Argument are not touched. An
     * empty stack would be an index failure; no builder pops without
     * having pushed.
     */
    method PopStack()
      requires Valid() && frames != []
      modifies this
      ensures Valid()
      ensures scope == old(frames[|frames| - 1])
      ensures frames == old(frames[..|frames| - 1])
      ensures option == old(option) && argument == old(argument)
      ensures Data() == old(Data())
    {
      var size := |frames|;
      scope := frames[size - 1];
      FramesOkPrefix(frames, size - 1, |flagCells|, |commandCells|);
      frames := frames[..size - 1];
    }

    /** Push then pop restores every slot and every stack. */
    method PushPop()
      requires Valid()
      modifies this
      ensures Valid() && SlotsKept() && argument == old(argument) && Data() == old(Data())
    {
      PushStack();
      PopStack();
    }

    /** The text a text target currently names. */
    function TextAt(t: TextTarget): string
      reads this
      requires TextOk(t, |flagCells|, |commandCells|)
    {
      match t
      case NoText => ""
      case GlobalName => globalName
      case GlobalDescription => globalDescription
      case GlobalVersion => globalVersion
      case FlagDescription(f) => flagCells[f].description
      case CommandDescription(c) => commandCells[c].description
    }

    /** A call of a Name, Description or Version slot. */
    method SetText(t: TextTarget, s: string, slot: string) returns (r: Outcome)
      requires Valid() && TextOk(t, |flagCells|, |commandCells|)
      modifies this
      ensures Valid() && SlotsKept() && CellsGrew()
      ensures HandlersUntouched(NoHandle)
      ensures r.Pass? <==> !t.NoText?
      ensures r.Fail? ==> r == Unbound(slot) && Data() == old(Data())
      ensures r.Pass? ==> TextAt(t) == s
      ensures globalName == (if t.GlobalName? then s else old(globalName))
      ensures globalDescription == (if t.GlobalDescription? then s else old(globalDescription))
      ensures globalVersion == (if t.GlobalVersion? then s else old(globalVersion))
      ensures flagCells == if t.FlagDescription? then old(flagCells)[t.flag := old(flagCells)[t.flag].(description := s)] else old(flagCells)
      ensures commandCells == if t.CommandDescription? then old(commandCells)[t.cmd := old(commandCells)[t.cmd].(description := s)] else old(commandCells)
    {
      match t
      case NoText => r := Unbound(slot);
      case GlobalName => globalName := s; r := Pass;
      case GlobalDescription => globalDescription := s; r := Pass;
      case GlobalVersion => globalVersion := s; r := Pass;
      case FlagDescription(f) => SetFlagDescription(f, s); r := Pass;
      case CommandDescription(c) => SetCommandDescription(c, s); r := Pass;
    }

    /** The Description closure of newFlag: setString(&result.description). */
    method SetFlagDescription(f: nat, s: string)
      requires Valid() && f < |flagCells|
      modifies this
      ensures Valid() && SlotsKept() && CellsGrew()
      ensures HandlersUntouched(NoHandle)
      ensures flagCells == old(flagCells)[f := old(flagCells)[f].(description := s)]
      ensures commandCells == old(commandCells) && argument == old(argument)
      ensures GlobalsKept()
    {
      flagCells := flagCells[f := flagCells[f].(description := s)];
    }

    /** The Description closure of newCommand: setString(&result.description). */
    method SetCommandDescription(c: nat, s: string)
      requires Valid() && c < |commandCells|
      modifies this
      ensures Valid() && SlotsKept() && CellsGrew()
      ensures HandlersUntouched(NoHandle)
      ensures commandCells == old(commandCells)[c := old(commandCells)[c].(description := s)]
      ensures flagCells == old(flagCells) && argument == old(argument)
      ensures GlobalsKept()
    {
      commandCells := commandCells[c := commandCells[c].(description := s)];
    }

    /** A call of a Default slot bound to a flag: setAny(&result.defaultValue). */
    method SetDefault(f: nat, v: string)
      requires Valid() && f < |flagCells|
      modifies this
      ensures Valid() && SlotsKept() && CellsGrew()
      ensures HandlersUntouched(NoHandle)
      ensures GlobalsKept() && argument == old(argument)
      ensures flagCells == old(flagCells)[f := old(flagCells)[f].(defaultValue := Some(v))]
      ensures commandCells == old(commandCells)
    {
      flagCells := flagCells[f := flagCells[f].(defaultValue := Some(v))];
    }

    /** A call of a Value slot bound to a flag: setAny(&result.value). */
    method SetValue(f: nat, v: Any)
      requires Valid() && f < |flagCells|
      modifies this
      ensures Valid() && SlotsKept() && CellsGrew()
      ensures HandlersUntouched(NoHandle)
      ensures GlobalsKept() && argument == old(argument)
      ensures flagCells == old(flagCells)[f := old(flagCells)[f].(value := Some(v))]
      ensures commandCells == old(commandCells)
    {
      flagCells := flagCells[f := flagCells[f].(value := Some(v))];
    }

    /** The Required closure of newCommand: append the flag reference to the command's list. */
    method AddRequired(c: nat, ref: nat)
      requires Valid() && c < |commandCells|
      modifies this
      ensures Valid() && SlotsKept() && CellsGrew()
      ensures HandlersUntouched(NoHandle)
      ensures GlobalsKept() && argument == old(argument)
      ensures commandCells == old(commandCells)[c := old(commandCells)[c].(required := old(commandCells)[c].required + [FlagRef(ref)])]
      ensures flagCells == old(flagCells)
    {
      commandCells := commandCells[c := commandCells[c].(required := commandCells[c].required + [FlagRef(ref)])];
    }

    /** The handler a bound Handle target names. */
    function HandlerAt(t: HandleTarget): Handler
      reads this
      requires HandleOk(t, |flagCells|, |commandCells|) && !t.NoHandle?
    {
      if t.FlagHandler? then flagCells[t.flag].handler else commandCells[t.cmd].handler
    }

    /** Write through setHandle's `handler` pointer; the label never changes. */
    method PutHandler(t: HandleTarget, h: Handler)
      requires Valid() && HandleOk(t, |flagCells|, |commandCells|) && !t.NoHandle?
      requires h.parent == HandlerAt(t).parent
      modifies this
      ensures Valid() && SlotsKept() && CellsGrew()
      ensures HandlersUntouched(t)
      ensures GlobalsKept() && argument == old(argument)
      ensures HandlerAt(t) == h
      ensures t.FlagHandler? ==> flagCells == old(flagCells)[t.flag := old(flagCells)[t.flag].(handler := h)] && commandCells == old(commandCells)
      ensures t.CommandHandler? ==> commandCells == old(commandCells)[t.cmd := old(commandCells)[t.cmd].(handler := h)] && flagCells == old(flagCells)
    {
      if t.FlagHandler? {
        flagCells := flagCells[t.flag := flagCells[t.flag].(handler := h)];
      } else {
        commandCells := commandCells[t.cmd := commandCells[t.cmd].(handler := h)];
      }
    }

    /**
     * `Handle(cb)` through a bound Handle slot: the kind check, then the
     * callback is stored. A refused callback leaves the handler alone.
     */
    method SetHandle(t: HandleTarget, cb: Callback) returns (r: Outcome)
      requires Valid() && HandleOk(t, |flagCells|, |commandCells|) && !t.NoHandle?
      modifies this
      ensures Valid() && SlotsKept() && CellsGrew()
      ensures GlobalsKept() && argument == old(argument) && HandlersUntouched(t)
      ensures r.Pass? <==> cb.Func?
      ensures r.Pass? ==> HandlerAt(t) == old(HandlerAt(t)).(callback := Some(cb))
      ensures r.Pass? && t.FlagHandler? ==>
        && flagCells == old(flagCells)[t.flag := old(flagCells)[t.flag].(handler := old(HandlerAt(t)).(callback := Some(cb)))]
        && commandCells == old(commandCells)
      ensures r.Pass? && t.CommandHandler? ==>
        && commandCells == old(commandCells)[t.cmd := old(commandCells)[t.cmd].(handler := old(HandlerAt(t)).(callback := Some(cb)))]
        && flagCells == old(flagCells)
      ensures r.Fail? ==> r == Fail(Handlers.SetCallback(old(HandlerAt(t)), cb).error) && Data() == old(Data())
    {
      match Handlers.SetCallback(HandlerAt(t), cb)
      case Failure(e) => r := Fail(e);
      case Success(h) => PutHandler(t, h); r := Pass;
    }

    /**
     * Invoking the binder `Handle` returned for a function of `arity`
     * parameters: the arity check, then the arguments are stored and the
     * handler marked bound. A wrong count leaves the handler alone.
     */
    method BindHandle(t: HandleTarget, arity: nat, args: seq<Any>) returns (r: Outcome)
      requires Valid() && HandleOk(t, |flagCells|, |commandCells|) && !t.NoHandle?
      modifies this
      ensures Valid() && SlotsKept() && CellsGrew()
      ensures GlobalsKept() && argument == old(argument) && HandlersUntouched(t)
      ensures r.Pass? <==> |args| == arity
      ensures r.Pass? ==> HandlerAt(t) == old(HandlerAt(t)).(setArgsCalled := true, args := args)
      ensures r.Pass? && t.FlagHandler? ==>
        && flagCells == old(flagCells)[t.flag := old(flagCells)[t.flag].(handler := old(HandlerAt(t)).(setArgsCalled := true, args := args))]
        && commandCells == old(commandCells)
      ensures r.Pass? && t.CommandHandler? ==>
        && commandCells == old(commandCells)[t.cmd := old(commandCells)[t.cmd].(handler := old(HandlerAt(t)).(setArgsCalled := true, args := args))]
        && flagCells == old(flagCells)
      ensures r.Fail? ==> r == Fail(Handlers.BindArgs(old(HandlerAt(t)), arity, args).error) && Data() == old(Data())
    {
      match Handlers.BindArgs(HandlerAt(t), arity, args)
      case Failure(e) => r := Fail(e);
      case Success(h) => PutHandler(t, h); r := Pass;
    }

    /**
     * The prologue of newFlag: a fresh flag cell (no description, no
     * default, no value, an unlabelled empty handler), then its scope:
     * Description, Default, Value and Handle now write into that flag;
     * Name, Version, Flag, Command, Required and Option keep the
     * enclosing bindings.
     */
    method OpenFlag(flagName: string, isOption: bool) returns (id: nat)
      requires Valid()
      modifies this
      ensures Valid() && CellsGrew()
      ensures HandlersUntouched(NoHandle)
      ensures GlobalsKept() && argument == old(argument)
      ensures id == old(|flagCells|)
      ensures flagCells == old(flagCells) + [Flag(flagName, isOption, "", None, None, EmptyHandler)]
      ensures commandCells == old(commandCells)
      ensures frames == old(frames) + [old(scope)]
      ensures scope == old(scope).(description := FlagDescription(id), default := FlagDefault(id),
                                   value := FlagValue(id), handle := FlagHandler(id))
      ensures option == old(option)
    {
      id := |flagCells|;
      FramesOkWider(frames, id, |commandCells|, id + 1, |commandCells|);
      flagCells := flagCells + [Flag(flagName, isOption, "", None, None, EmptyHandler)];
      PushStack();
      scope := scope.(description := FlagDescription(id), default := FlagDefault(id),
                      value := FlagValue(id), handle := FlagHandler(id));
    }

    /**
     * The prologue of newCommand: a fresh command cell labelled after
     * its name, then its scope: Description, Handle, Required, Flag and
     * Option now write into that command; Name, Version, Default, Value
     * and Command keep the enclosing bindings, so a nested Command(...)
     * still appends to the root list.
     */
    method OpenCommand(commandName: string) returns (id: nat)
      requires Valid()
      modifies this
      ensures Valid() && CellsGrew()
      ensures HandlersUntouched(NoHandle)
      ensures GlobalsKept() && argument == old(argument)
      ensures id == old(|commandCells|)
      ensures commandCells == old(commandCells) + [Command(commandName, "", [], Handler(CommandLabel(commandName), None, false, []), [], [])]
      ensures flagCells == old(flagCells)
      ensures frames == old(frames) + [old(scope)]
      ensures scope == old(scope).(description := CommandDescription(id), handle := CommandHandler(id),
                                   required := CommandRequired(id), flag := CommandFlags(id))
      ensures option == CommandFlags(id)
    {
      id := |commandCells|;
      FramesOkWider(frames, |flagCells|, id, |flagCells|, id + 1);
      var cell := Command(commandName, "", [], Handler(CommandLabel(commandName), None, false, []), [], []);
      AppendCommandCell(flagCells, commandCells, cell);
      commandCells := commandCells + [cell];
      PushStack();
      scope := scope.(description := CommandDescription(id), handle := CommandHandler(id),
                      required := CommandRequired(id), flag := CommandFlags(id));
      option := CommandFlags(id);
    }

    /**
     * newFlag: a fresh flag cell, its scope, the block, then the
     * enclosing scope is back (Option aside: a Command inside the block
     * may have rebound it). The block's Handle calls go to the new
     * flag, so every handler that existed before is untouched.
     */
    method NewFlag(flagName: string, block: seq<Call>, isOption: bool) returns (r: Result<nat>)
      requires Valid()
      modifies this
      decreases block, 2
      ensures Valid() && CellsGrew() && HandlersUntouched(NoHandle)
      ensures Wired(block, FlagScope(BoundOf(old(scope))), old(option).CommandFlags?) ==> r.Success?
      ensures old(option).CommandFlags? && r.Success? ==> Wired(block, FlagScope(BoundOf(old(scope))), true)
      ensures block == [] ==> r.Success?
      ensures r.Success? ==> scope == old(scope) && frames == old(frames)
      ensures r.Success? ==> OptionStaysOrMoves()
      ensures r.Success? ==> r.value == old(|flagCells|) < |flagCells|
      ensures r.Success? ==> flagCells[r.value].name == flagName && flagCells[r.value].option == isOption
      ensures r.Success? ==>
        && Handlers.Replay(EmptyHandler, TopOps(block)).Success?
        && flagCells[r.value].handler == Handlers.Replay(EmptyHandler, TopOps(block)).value
    {
      var id := OpenFlag(flagName, isOption);
      ghost var fs, cs := flagCells, commandCells;
      var o := Run(block);
      GrowsTrans(old(flagCells), old(commandCells), fs, cs, flagCells, commandCells);
      HandlersKeptTrans(old(flagCells), old(commandCells), fs, cs, flagCells, commandCells, NoHandle, FlagHandler(id));
      if o.Fail? {
        return Failure(o.error);
      }
      PopStack();
      r := Success(id);
    }

    /**
     * The closure addFlag(to, option) builds: declare the flag, then
     * append it at the end of the target collection. `before` is that
     * collection once the flag's block has run; it extends the
     * collection as the call found it.
     */
    method AddFlag(to: FlagsTarget, isOption: bool, flagName: string, block: seq<Call>)
      returns (r: Result<nat>, ghost before: seq<Flag>)
      requires Valid() && to.CommandFlags? && to.cmd < |commandCells|
      modifies this
      decreases block, 3
      ensures Valid() && CellsGrew() && HandlersUntouched(NoHandle)
      ensures Wired(block, FlagScope(BoundOf(old(scope))), old(option).CommandFlags?) ==> r.Success?
      ensures old(option).CommandFlags? && r.Success? ==> Wired(block, FlagScope(BoundOf(old(scope))), true)
      ensures block == [] ==> r.Success?
      ensures r.Success? ==> scope == old(scope) && frames == old(frames)
      ensures r.Success? ==> OptionStaysOrMoves()
      ensures r.Success? ==> r.value == old(|flagCells|) < |flagCells|
      ensures r.Success? ==> old(commandCells[to.cmd].flags) <= before
      ensures r.Success? ==> commandCells[to.cmd].flags == before + [flagCells[r.value]]
      ensures r.Success? ==> flagCells[r.value].name == flagName && flagCells[r.value].option == isOption
      ensures r.Success? ==>
        && Handlers.Replay(EmptyHandler, TopOps(block)).Success?
        && flagCells[r.value].handler == Handlers.Replay(EmptyHandler, TopOps(block)).value
    {
      var id := NewFlag(flagName, block, isOption);
      if id.Failure? {
        return Failure(id.error), [];
      }
      before := commandCells[to.cmd].flags;
      ghost var fs, cs := flagCells, commandCells;
      AppendFlag(to.cmd, id.value);
      GrowsTrans(old(flagCells), old(commandCells), fs, cs, flagCells, commandCells);
      HandlersKeptTrans(old(flagCells), old(commandCells), fs, cs, flagCells, commandCells, NoHandle, NoHandle);
      r := Success(id.value);
    }

    /** `*to = append(*to, flag)`: the flag cell as it now stands joins the command's flags. */
    method AppendFlag(c: nat, f: nat)
      requires Valid() && c < |commandCells| && f < |flagCells|
      modifies this
      ensures Valid() && SlotsKept() && CellsGrew() && HandlersUntouched(NoHandle)
      ensures GlobalsKept() && argument == old(argument)
      ensures flagCells == old(flagCells)
      ensures commandCells == old(commandCells)[c := old(commandCells)[c].(flags := old(commandCells)[c].flags + [flagCells[f]])]
    {
      var target := commandCells[c];
      commandCells := commandCells[c := target.(flags := target.flags + [flagCells[f]])];
    }

    /**
     * newCommand: a fresh command cell labelled after its name, its
     * scope, the block, the enclosing scope back (Option aside: it is
     * left on this command or on one declared inside the block), then
     * the handler check. `passed` says whether the block ran to its end.
     * The new command's handler is then its fresh handler after the
     * block's own Handle and binder calls, so the check reports a
     * missing Handle, or a Handle whose binder never ran, with the
     * command's label; a refused Handle or binder call fails the block.
     */
    method NewCommand(commandName: string, block: seq<Call>) returns (r: Result<Command>, ghost passed: bool)
      requires Valid()
      modifies this
      decreases block, 2
      ensures Valid() && CellsGrew() && HandlersUntouched(NoHandle)
      ensures passed <==> Wired(block, CommandScope(BoundOf(old(scope))), true)
      ensures r.Success? <==> passed && Handlers.HasBind(TopOps(block))
      ensures !passed ==> r.Failure?
      ensures block == [] ==> passed
      ensures passed ==> old(|commandCells|) < |commandCells|
      ensures passed ==>
        && Handlers.Replay(Handler(CommandLabel(commandName), None, false, []), TopOps(block)).Success?
        && commandCells[old(|commandCells|)].handler ==
             Handlers.Replay(Handler(CommandLabel(commandName), None, false, []), TopOps(block)).value
      ensures passed ==> r == CheckCommand(commandCells[old(|commandCells|)])
      ensures passed && !Handlers.HasHandle(TopOps(block)) ==>
        r == Failure(Error(MissingHandler, Some(CommandLabel(commandName))))
      ensures passed && Handlers.HasHandle(TopOps(block)) && !Handlers.HasBind(TopOps(block)) ==>
        r == Failure(Error(ArgsNotBound, Some(CommandLabel(commandName))))
      ensures passed && Handlers.HasBind(TopOps(block)) ==> r.Success?
      ensures Handlers.Replay(Handler(CommandLabel(commandName), None, false, []), TopOps(block)).Failure? ==> !passed
      ensures r.Success? ==> scope == old(scope) && frames == old(frames)
      ensures r.Success? ==> option.CommandFlags? && old(|commandCells|) <= option.cmd < |commandCells|
      ensures r.Success? ==> r.value == commandCells[old(|commandCells|)]
      ensures r.Success? ==> r.value.name == commandName && Closed(r.value)
    {
      var id := OpenCommand(commandName);
      ghost var fs, cs := flagCells, commandCells;
      var o := Run(block);
      GrowsTrans(old(flagCells), old(commandCells), fs, cs, flagCells, commandCells);
      HandlersKeptTrans(old(flagCells), old(commandCells), fs, cs, flagCells, commandCells, NoHandle, CommandHandler(id));
      passed := o.Pass?;
      if o.Fail? {
        return Failure(o.error), passed;
      }
      PopStack();
      CloseAfterBlock(commandCells[id], block);
      r := CheckCommand(commandCells[id]);
    }

    /**
     * The closure addCommand(&global.commands) builds: declare the
     * command and, only if it passed its check, append it at the end of
     * the root's list. `before` is that list once the block has run.
     */
    method AddCommand(commandName: string, block: seq<Call>) returns (r: Outcome, ghost before: seq<Command>)
      requires Valid()
      modifies this
      decreases block, 3
      ensures Valid() && CellsGrew() && HandlersUntouched(NoHandle)
      ensures r.Pass? <==> Wired(block, CommandScope(BoundOf(old(scope))), true) && Handlers.HasBind(TopOps(block))
      ensures r.Pass? ==> scope == old(scope) && frames == old(frames)
      ensures r.Pass? ==> OptionStaysOrMoves()
      ensures old(commandCells[0].commands) <= before
      ensures r.Fail? ==> commandCells[0].commands == before
      ensures r.Pass? ==> |commandCells[0].commands| == |before| + 1 && commandCells[0].commands[..|before|] == before
      ensures r.Pass? ==> old(|commandCells|) < |commandCells|
      ensures r.Pass? ==> commandCells[0].commands[|before|] == commandCells[old(|commandCells|)]
      ensures r.Pass? ==> commandCells[0].commands[|before|].name == commandName
    {
      var c, passed := NewCommand(commandName, block);
      var root := commandCells[0];
      before := root.commands;
      if c.Failure? {
        return Fail(c.error), before;
      }
      commandCells := commandCells[0 := root.(commands := root.commands + [c.value])];
      r := Pass;
    }

    /**
     * One call of an author's block, through whatever the slot is bound
     * to. Only a Handle call touches the handler the Handle slot names,
     * by exactly the handler calls it makes; every other handler that
     * existed is untouched.
     */
    method Exec(call: Call) returns (r: Outcome)
      requires Valid()
      modifies this
      decreases call, 2
      ensures Valid() && CellsGrew() && HandlersUntouched(old(scope.handle))
      ensures CallWired(call, BoundOf(old(scope)), old(option).CommandFlags?) ==> r.Pass?
      ensures old(option).CommandFlags? && r.Pass? ==> CallWired(call, BoundOf(old(scope)), true)
      ensures r.Pass? ==> scope == old(scope) && frames == old(frames)
      ensures r.Pass? ==> OptionStaysOrMoves()
      ensures r.Pass? && !old(scope.handle).NoHandle? ==>
        && Handlers.Replay(old(HandlerAt(scope.handle)), CallOps(call)).Success?
        && HandlerAt(scope.handle) == Handlers.Replay(old(HandlerAt(scope.handle)), CallOps(call)).value
    {
      if call.HandleCall? || call.HandleBindCall? {
        r := ExecHandle(call);
      } else if call.FlagCall? || call.OptionCall? || call.ArgumentCall? {
        r := ExecFlag(call);
      } else if call.CommandCall? {
        ghost var before;
        r, before := ExecCommand(call);
      } else {
        r := ExecWrite(call);
      }
    }

    /** Name, Description, Version, Default, Value and Required: a write into one field. */
    method ExecWrite(call: Call) returns (r: Outcome)
      requires Valid()
      requires call.NameCall? || call.DescriptionCall? || call.VersionCall? ||
               call.DefaultCall? || call.ValueCall? || call.RequiredCall?
      modifies this
      ensures Valid() && CellsGrew() && SlotsKept() && HandlersUntouched(NoHandle)
      ensures r.Pass? <==> CallWired(call, BoundOf(old(scope)), old(option).CommandFlags?)
      ensures r.Fail? ==> Data() == old(Data())
    {
      if call.NameCall? || call.DescriptionCall? || call.VersionCall? {
        r := ExecText(call);
      } else {
        r := ExecField(call);
      }
    }

    /**
     * Name, Description and Version: setString through the slot the call
     * names, and nothing else changes.
     */
    method ExecText(call: Call) returns (r: Outcome)
      requires Valid() && (call.NameCall? || call.DescriptionCall? || call.VersionCall?)
      modifies this
      ensures Valid() && CellsGrew() && SlotsKept() && HandlersUntouched(NoHandle)
      ensures argument == old(argument)
      ensures r.Pass? <==> CallWired(call, BoundOf(old(scope)), old(option).CommandFlags?)
      ensures r.Fail? ==> Data() == old(Data())
      ensures r.Pass? ==> TextAt(TextSlot(call, scope)) == call.text
      ensures var t := TextSlot(call, old(scope));
        && globalName == (if t.GlobalName? then call.text else old(globalName))
        && globalDescription == (if t.GlobalDescription? then call.text else old(globalDescription))
        && globalVersion == (if t.GlobalVersion? then call.text else old(globalVersion))
        && flagCells == (if t.FlagDescription? then old(flagCells)[t.flag := old(flagCells)[t.flag].(description := call.text)] else old(flagCells))
        && commandCells == (if t.CommandDescription? then old(commandCells)[t.cmd := old(commandCells)[t.cmd].(description := call.text)] else old(commandCells))
    {
      match call
      case NameCall(s) => r := SetText(scope.name, s, "Name");
      case DescriptionCall(s) => r := SetText(scope.description, s, "Description");
      case VersionCall(s) => r := SetText(scope.version, s, "Version");
    }

    /**
     * Default, Value and Required: a write into one field of the flag or
     * command the slot names; the globals and the other arena stay.
     */
    method ExecField(call: Call) returns (r: Outcome)
      requires Valid() && (call.DefaultCall? || call.ValueCall? || call.RequiredCall?)
      modifies this
      ensures Valid() && CellsGrew() && SlotsKept() && HandlersUntouched(NoHandle)
      ensures GlobalsKept() && argument == old(argument)
      ensures r.Pass? <==> CallWired(call, BoundOf(old(scope)), old(option).CommandFlags?)
      ensures r.Fail? ==> Data() == old(Data())
      ensures r.Pass? && call.DefaultCall? ==>
        && scope.default.FlagDefault?
        && flagCells == old(flagCells)[scope.default.flag := old(flagCells)[scope.default.flag].(defaultValue := Some(call.defaultText))]
        && commandCells == old(commandCells)
      ensures r.Pass? && call.ValueCall? ==>
        && scope.value.FlagValue?
        && flagCells == old(flagCells)[scope.value.flag := old(flagCells)[scope.value.flag].(value := Some(call.v))]
        && commandCells == old(commandCells)
      ensures r.Pass? && call.RequiredCall? ==>
        && scope.required.CommandRequired?
        && commandCells == old(commandCells)[scope.required.cmd := old(commandCells)[scope.required.cmd].(
             required := old(commandCells)[scope.required.cmd].required + [FlagRef(call.ref)])]
        && flagCells == old(flagCells)
    {
      match call
      case DefaultCall(v) =>
        if scope.default.NoDefault? {
          r := Unbound("Default");
        } else {
          SetDefault(scope.default.flag, v);
          r := Pass;
        }
      case ValueCall(v) =>
        if scope.value.NoValue? {
          r := Unbound("Value");
        } else {
          SetValue(scope.value.flag, v);
          r := Pass;
        }
      case RequiredCall(ref) =>
        if scope.required.NoRequired? {
          r := Unbound("Required");
        } else {
          AddRequired(scope.required.cmd, ref);
          r := Pass;
        }
    }

    /** `Handle(cb)`, and `Handle(cb)(args...)`, through the Handle slot. */
    method ExecHandle(call: Call) returns (r: Outcome)
      requires Valid() && (call.HandleCall? || call.HandleBindCall?)
      modifies this
      ensures Valid() && CellsGrew() && SlotsKept() && HandlersUntouched(old(scope.handle))
      ensures GlobalsKept() && argument == old(argument)
      ensures r.Pass? <==>
        !old(scope.handle).NoHandle? && Handlers.Replay(old(HandlerAt(scope.handle)), CallOps(call)).Success?
      ensures r.Pass? <==> CallWired(call, BoundOf(old(scope)), old(option).CommandFlags?)
      ensures r.Pass? && !old(scope.handle).NoHandle? ==>
        && Handlers.Replay(old(HandlerAt(scope.handle)), CallOps(call)).Success?
        && HandlerAt(scope.handle) == Handlers.Replay(old(HandlerAt(scope.handle)), CallOps(call)).value
      ensures r.Fail? && !call.HandleBindCall? ==> Data() == old(Data())
      ensures r.Pass? && old(scope.handle).FlagHandler? ==>
        && flagCells == old(flagCells)[scope.handle.flag := old(flagCells)[scope.handle.flag].(handler := HandlerAt(scope.handle))]
        && commandCells == old(commandCells)
      ensures r.Pass? && old(scope.handle).CommandHandler? ==>
        && commandCells == old(commandCells)[scope.handle.cmd := old(commandCells)[scope.handle.cmd].(handler := HandlerAt(scope.handle))]
        && flagCells == old(flagCells)
    {
      if scope.handle.NoHandle? {
        r := Unbound("Handle");
        return;
      }
      CallOpsReplay(HandlerAt(scope.handle), call);
      r := HandleInto(scope.handle, call);
    }

    /**
     * The callback closure of a bound Handle slot, then for
     * `Handle(cb)(args...)` the binder it returned: the handler becomes
     * the replay of the call's handler operations, and only that handler
     * changes.
     */
    method HandleInto(t: HandleTarget, call: Call) returns (r: Outcome)
      requires Valid() && HandleOk(t, |flagCells|, |commandCells|) && !t.NoHandle?
      requires call.HandleCall? || call.HandleBindCall?
      modifies this
      ensures Valid() && CellsGrew() && SlotsKept() && HandlersUntouched(t)
      ensures GlobalsKept() && argument == old(argument)
      ensures r.Pass? <==> Handlers.Replay(old(HandlerAt(t)), CallOps(call)).Success?
      ensures r.Pass? ==> HandlerAt(t) == Handlers.Replay(old(HandlerAt(t)), CallOps(call)).value
      ensures r.Fail? && !call.HandleBindCall? ==> Data() == old(Data())
      ensures r.Pass? && t.FlagHandler? ==>
        && flagCells == old(flagCells)[t.flag := old(flagCells)[t.flag].(handler := HandlerAt(t))]
        && commandCells == old(commandCells)
      ensures r.Pass? && t.CommandHandler? ==>
        && commandCells == old(commandCells)[t.cmd := old(commandCells)[t.cmd].(handler := HandlerAt(t))]
        && flagCells == old(flagCells)
    {
      CallOpsReplay(HandlerAt(t), call);
      if call.HandleCall? {
        r := SetHandle(t, call.cb);
      } else {
        r := SetAndBind(t, call.cb, call.args);
      }
    }

    /**
     * `Handle(cb)(args...)`: the callback closure, then, when `cb` is a
     * function, the binder it returned applied to `args`.
     */
    method SetAndBind(t: HandleTarget, cb: Callback, args: seq<Any>) returns (r: Outcome)
      requires Valid() && HandleOk(t, |flagCells|, |commandCells|) && !t.NoHandle?
      modifies this
      ensures Valid() && CellsGrew() && SlotsKept() && HandlersUntouched(t)
      ensures GlobalsKept() && argument == old(argument)
      ensures r.Pass? <==> cb.Func? && |args| == cb.arity
      ensures r.Pass? ==> HandlerAt(t) == old(HandlerAt(t)).(callback := Some(cb), setArgsCalled := true, args := args)
      ensures r.Fail? && cb.NonFunc? ==> r == Fail(Handlers.SetCallback(old(HandlerAt(t)), cb).error) && Data() == old(Data())
      ensures r.Pass? && t.FlagHandler? ==>
        && flagCells == old(flagCells)[t.flag := old(flagCells)[t.flag].(handler := HandlerAt(t))]
        && commandCells == old(commandCells)
      ensures r.Pass? && t.CommandHandler? ==>
        && commandCells == old(commandCells)[t.cmd := old(commandCells)[t.cmd].(handler := HandlerAt(t))]
        && flagCells == old(flagCells)
    {
      r := SetHandle(t, cb);
      if r.Pass? {
        ghost var fs, cs := flagCells, commandCells;
        r := BindHandle(t, cb.arity, args);
        HandlersKeptTrans(old(flagCells), old(commandCells), fs, cs, flagCells, commandCells, t, t);
        if r.Pass? && t.FlagHandler? {
          ReplaceTwice(old(flagCells), t.flag, fs[t.flag], flagCells[t.flag]);
        } else if r.Pass? && t.CommandHandler? {
          ReplaceTwice(old(commandCells), t.cmd, cs[t.cmd], commandCells[t.cmd]);
        }
      }
    }

    /**
     * Flag, Option and Argument: a nested flag declaration, whose Handle
     * calls go to the flag it declares, appended to the collection the
     * slot names.
     */
    method ExecFlag(call: Call) returns (r: Outcome)
      requires Valid() && (call.FlagCall? || call.OptionCall? || call.ArgumentCall?)
      modifies this
      decreases call, 1
      ensures Valid() && CellsGrew() && HandlersUntouched(NoHandle)
      ensures CallWired(call, BoundOf(old(scope)), old(option).CommandFlags?) ==> r.Pass?
      ensures old(option).CommandFlags? && r.Pass? ==> CallWired(call, BoundOf(old(scope)), true)
      ensures call.ArgumentCall? ==> r == Unbound("Argument")
      ensures r.Pass? ==> scope == old(scope) && frames == old(frames)
      ensures r.Pass? ==> OptionStaysOrMoves()
      ensures r.Pass? ==>
        var to := if call.FlagCall? then old(scope.flag) else old(option);
        && to.CommandFlags? && to.cmd < old(|commandCells|)
        && old(|flagCells|) < |flagCells|
        && flagCells[old(|flagCells|)].name == call.flagName
        && flagCells[old(|flagCells|)].option == call.OptionCall?
        && old(commandCells)[to.cmd].flags < commandCells[to.cmd].flags
        && commandCells[to.cmd].flags[|commandCells[to.cmd].flags| - 1] == flagCells[old(|flagCells|)]
    {
      if call.ArgumentCall? {
        // Nothing ever assigns the Argument slot: calling it calls nil.
        return Unbound("Argument");
      }
      var to := if call.FlagCall? then scope.flag else option;
      if to.NoFlags? {
        return Unbound(if call.FlagCall? then "Flag" else "Option");
      }
      var res, before := AddFlag(to, call.OptionCall?, call.flagName, call.block);
      r := if res.Success? then Pass else Fail(res.error);
    }

    /**
     * Command: a nested command declaration, appended to the root's list
     * when it passes its check. `before` is that list once the
     * command's block has run.
     */
    method ExecCommand(call: Call) returns (r: Outcome, ghost before: seq<Command>)
      requires Valid() && call.CommandCall?
      modifies this
      decreases call, 1
      ensures Valid() && CellsGrew() && HandlersUntouched(NoHandle)
      ensures r.Pass? <==> CallWired(call, BoundOf(old(scope)), old(option).CommandFlags?)
      ensures r.Pass? ==> scope == old(scope) && frames == old(frames)
      ensures r.Pass? ==> OptionStaysOrMoves()
      ensures r.Pass? ==>
        && old(|commandCells|) < |commandCells|
        && commandCells[old(|commandCells|)].name == call.commandName
        && old(commandCells)[0].commands <= before
        && commandCells[0].commands == before + [commandCells[old(|commandCells|)]]
    {
      if scope.command.NoCommands? {
        return Unbound("Command"), [];
      }
      r, before := AddCommand(call.commandName, call.block);
    }

    /**
     * An author's block: its calls in order, the first failure ending
     * it (all calls but the last, then the last). A wired block passes; when Option is bound from the start, only
     * a wired block passes. When it passes, the handler the Handle slot
     * names has gone through exactly the block's own Handle and binder
     * calls.
     */
    method Run(block: seq<Call>) returns (r: Outcome)
      requires Valid()
      modifies this
      decreases block, 1
      ensures Valid() && CellsGrew() && HandlersUntouched(old(scope.handle))
      ensures r.Pass? ==> scope == old(scope) && frames == old(frames)
      ensures r.Pass? ==> OptionStaysOrMoves()
      ensures block == [] ==> r.Pass?
      ensures Wired(block, BoundOf(old(scope)), old(option).CommandFlags?) ==> r.Pass?
      ensures old(option).CommandFlags? && r.Pass? ==> Wired(block, BoundOf(old(scope)), true)
      ensures r.Pass? && !old(scope.handle).NoHandle? ==>
        && Handlers.Replay(old(HandlerAt(scope.handle)), TopOps(block)).Success?
        && HandlerAt(scope.handle) == Handlers.Replay(old(HandlerAt(scope.handle)), TopOps(block)).value
    {
      if block == [] {
        return Pass;
      }
      var last := |block| - 1;
      r := Run(block[..last]);
      if r.Fail? {
        WiredShorter(block, BoundOf(old(scope)), old(option).CommandFlags?, last);
        return;
      }
      r := RunStep(block, last, old(flagCells), old(commandCells), old(if scope.handle.NoHandle? then EmptyHandler else HandlerAt(scope.handle)),
                   old(option).CommandFlags?, old(option));
      assert block[..last + 1] == block;
    }

    /**
     * Call `i` of a block, once the calls before it have passed: what Run
     * states of the block's first `i` calls (relative to the cells `fs0`,
     * `cs0` and Option `option0` the block started from) carries over to
     * the first `i + 1` when the call passes, and a failing call shows
     * that the block is not wired.
     */
    method RunStep(block: seq<Call>, i: nat, ghost fs0: seq<Flag>, ghost cs0: seq<Command>,
                   ghost h0: Handler, ghost opt0: bool, ghost option0: FlagsTarget) returns (o: Outcome)
      requires Valid() && i < |block|
      requires Grows(fs0, cs0, flagCells, commandCells) && HandlersKept(fs0, cs0, flagCells, commandCells, scope.handle)
      requires option == option0 || (option.CommandFlags? && |cs0| <= option.cmd)
      requires opt0 == option0.CommandFlags?
      requires opt0 ==> Wired(block[..i], BoundOf(scope), true)
      requires !scope.handle.NoHandle? ==>
        && Handlers.Replay(h0, TopOps(block[..i])).Success?
        && HandlerAt(scope.handle) == Handlers.Replay(h0, TopOps(block[..i])).value
      modifies this
      decreases block, 0
      ensures Valid()
      ensures Grows(fs0, cs0, flagCells, commandCells) && HandlersKept(fs0, cs0, flagCells, commandCells, old(scope.handle))
      ensures o.Fail? ==> !Wired(block, BoundOf(old(scope)), opt0)
      ensures o.Pass? ==> scope == old(scope) && frames == old(frames)
      ensures o.Pass? ==> option == option0 || (option.CommandFlags? && |cs0| <= option.cmd)
      ensures o.Pass? && opt0 ==> Wired(block[..i + 1], BoundOf(scope), true)
      ensures o.Pass? && !scope.handle.NoHandle? ==>
        && Handlers.Replay(h0, TopOps(block[..i + 1])).Success?
        && HandlerAt(scope.handle) == Handlers.Replay(h0, TopOps(block[..i + 1])).value
    {
      ghost var fs, cs, t, b := flagCells, commandCells, scope.handle, BoundOf(scope);
      WiredCall(block, b, opt0, option.CommandFlags?, i);
      o := Exec(block[i]);
      GrowsTrans(fs0, cs0, fs, cs, flagCells, commandCells);
      HandlersKeptTrans(fs0, cs0, fs, cs, flagCells, commandCells, t, t);
      if o.Pass? {
        if !t.NoHandle? {
          TopOpsStep(h0, block, i);
        }
        if opt0 {
          WiredPrefix(block, b, true, i);
        }
      }
    }

    /**
     * Cli: bind the root slots (Version, Description and Name to the
     * globals; Flag and Option to the root's flags; Command to the root's
     * commands; Handle to the root's handler) and run the top-level
     * block. Default, Value and Required keep whatever they were.
     */
    method Cli(block: seq<Call>) returns (r: Outcome)
      requires Valid()
      modifies this
      ensures Valid() && CellsGrew()
      ensures HandlersUntouched(CommandHandler(0))
      ensures r.Pass? <==> Wired(block, CliScope(BoundOf(old(scope))), true)
      ensures block == [] ==> r.Pass?
      ensures r.Pass? ==> frames == old(frames)
      ensures r.Pass? ==>
        && Handlers.Replay(old(commandCells[0].handler), TopOps(block)).Success?
        && commandCells[0].handler == Handlers.Replay(old(commandCells[0].handler), TopOps(block)).value
      ensures r.Pass? ==> scope == old(scope).(name := GlobalName, description := GlobalDescription, version := GlobalVersion,
                                                    flag := CommandFlags(0), handle := CommandHandler(0), command := RootCommands)
    {
      scope := scope.(version := GlobalVersion, description := GlobalDescription, name := GlobalName,
                      flag := CommandFlags(0), command := RootCommands, handle := CommandHandler(0));
      option := CommandFlags(0);
      r := Run(block);
    }
  }

  /**
   * A whole assembly from the package's initial state. When it passes,
   * the root keeps its empty label, every command in its list is closed
   * (labelled, handler set and bound, no sub-commands), and every flag
   * anywhere in the tree has an empty label.
   */
  method Assemble(block: seq<Call>) returns (r: Outcome, tree: Command)
    ensures r.Pass? <==> Wired(block, CliScope(NothingBound), true)
    ensures r.Pass? ==>
      && Handlers.Replay(EmptyHandler, TopOps(block)).Success?
      && tree.handler == Handlers.Replay(EmptyHandler, TopOps(block)).value
    ensures tree.handler.parent == ""
    ensures forall j :: 0 <= j < |tree.commands| ==> Closed(tree.commands[j])
    ensures forall k :: 0 <= k < |tree.flags| ==> tree.flags[k].handler.parent == ""
    ensures forall j, k :: 0 <= j < |tree.commands| && 0 <= k < |tree.commands[j].flags| ==>
      tree.commands[j].flags[k].handler.parent == ""
  {
    var b := new Builder();
    r := b.Cli(block);
    tree := b.commandCells[0];
    forall j, k | 0 <= j < |tree.commands| && 0 <= k < |tree.commands[j].flags|
      ensures tree.commands[j].flags[k].handler.parent == ""
    {
      assert Closed(tree.commands[j]);
    }
  }
}

=== FILE: cli_types.dfy ===
/**
 * The values the builder assembles: flags, commands and their handlers
 * (cli.go:52-76), the outcome of every builder call, and the abstract
 * view of the Go values that the builder only inspects by reflection.
 */
module CliTypes {

  datatype Option<+T> = None | Some(value: T)

  /**
   * A value handed to `Value(...)`, `Required(...)` or a handler's binder
   * (Go's `any`): a string, a number, or a reference to a flag, identified
   * by the order in which the builder allocated it.
   */
  datatype Any = Text(s: string) | Number(n: int) | FlagRef(flag: nat)

  /**
   * What reflection tells about the argument of `Handle(...)`: either it
   * is not a function, or it is a function with `arity` parameters.
   */
  datatype Callback = NonFunc | Func(arity: nat)

  /**
   * Go's `handler` struct: the label of the owning command (empty for the
   * root and for every flag), the registered callback (nil until
   * `Handle` succeeds), whether the binder returned by `Handle` ran, and
   * the arguments it last received.
   */
  datatype Handler = Handler(parent: string, callback: Option<Callback>, setArgsCalled: bool, args: seq<Any>)

  /**
   * Go's `flag` struct. The default is kept as the text `%v` would print
   * for it; `None` is the nil default.
   */
  datatype Flag = Flag(
    name: string,
    option: bool,
    description: string,
    defaultValue: Option<string>,
    value: Option<Any>,
    handler: Handler)

  /** Go's `command` struct; `global` is the root command. */
  datatype Command = Command(
    name: string,
    description: string,
    required: seq<Any>,
    handler: Handler,
    flags: seq<Flag>,
    commands: seq<Command>)

  /**
   * The panics of the builder. `UnboundSlot` is the call of a nil slot
   * variable, such as `Argument`, which nothing ever assigns.
   */
  datatype ErrorKind =
    | InvalidHandlerKind
    | ArityMismatch
    | MissingHandler
    | ArgsNotBound
    | UnboundSlot(slot: string)

  /** A panic value: its kind and, when `karma.Format` wrapped it, the label it carries. */
  datatype Error = Error(kind: ErrorKind, context: Option<string>)

  datatype Result<+T> = Success(value: T) | Failure(error: Error)

  datatype Outcome = Pass | Fail(error: Error)

  /** The handler of a fresh flag or of the root command: zero value, empty label. */
  const EmptyHandler: Handler := Handler("", None, false, [])

  /** The root command `global` before anything is declared. */
  const EmptyCommand: Command := Command("", "", [], EmptyHandler, [], [])

  /** The diagnostic label newCommand gives a command's handler. */
  function CommandLabel(name: string): string
  {
    "command \"" + name + "\""
  }
}

=== FILE: handlers.dfy ===
/**
 * The handler registry: the kind check on the callback given to
 * `Handle`, the arity check of the binder `Handle` returns, the
 * close-of-command check, and the two transitions of a handler
 * (cli.go:257-337). A handler moves from Empty (no callback) to
 * CallbackSet (callback stored) to ArgsBound (binder invoked).
 */
module Handlers {
  import opened CliTypes

  /** The context a handler error carries: the handler's label, only when it is non-empty. */
  function Context(parent: string): Option<string>
  {
    if parent != "" then Some(parent) else None
  }

  /** validateCallback: the argument of `Handle` must be a function. */
  function ValidateCallback(cb: Callback): (r: Outcome)
    ensures r.Pass? <==> cb.Func?
    ensures r.Fail? ==> r.error == Error(InvalidHandlerKind, None)
  {
    if cb.Func? then Pass else Fail(Error(InvalidHandlerKind, None))
  }

  /**
   * validateCallbackArgs: the binder must receive exactly as many
   * arguments as the callback declares parameters.
   */
  function ValidateCallbackArgs(arity: nat, args: seq<Any>): (r: Outcome)
    ensures r.Pass? <==> |args| == arity
    ensures r.Fail? ==> r.error == Error(ArityMismatch, None)
  {
    if arity != |args| then Fail(Error(ArityMismatch, None)) else Pass
  }

  /**
   * validateHandler: a missing callback is reported first; a callback
   * whose binder never ran is reported next; anything else passes.
   */
  function ValidateHandler(h: Handler): (r: Outcome)
    ensures r.Pass? <==> h.callback.Some? && h.setArgsCalled
    ensures r.Fail? ==> r.error.context.None?
    ensures r.Fail? && r.error.kind == MissingHandler <==> h.callback.None?
    ensures r.Fail? && r.error.kind == ArgsNotBound <==> h.callback.Some? && !h.setArgsCalled
  {
    if h.callback.None? then Fail(Error(MissingHandler, None))
    else if !h.setArgsCalled then Fail(Error(ArgsNotBound, None))
    else Pass
  }

  /**
   * The closure `Handle` that setHandle builds for handler `h`: a
   * non-function is refused with the handler's label as context (when
   * it has one) and `h` stays as it was; a function replaces the
   * callback and touches nothing else.
   */
  function SetCallback(h: Handler, cb: Callback): (r: Result<Handler>)
    ensures r.Success? <==> cb.Func?
    ensures r.Failure? ==> r.error.kind == InvalidHandlerKind
    ensures r.Failure? ==> r.error.context == Context(h.parent)
    ensures r.Success? ==> r.value.callback == Some(cb)
    ensures r.Success? ==> r.value.parent == h.parent && r.value.setArgsCalled == h.setArgsCalled && r.value.args == h.args
  {
    match ValidateCallback(cb)
    case Fail(e) => Failure(Error(e.kind, Context(h.parent)))
    case Pass => Success(h.(callback := Some(cb)))
  }

  /**
   * The binder returned by `Handle(cb)` for a function `cb` of `arity`
   * parameters: a wrong argument count is refused and `h` stays as it
   * was; otherwise the arguments replace any earlier ones and the
   * handler is marked bound.
   */
  function BindArgs(h: Handler, arity: nat, args: seq<Any>): (r: Result<Handler>)
    ensures r.Success? <==> |args| == arity
    ensures r.Failure? ==> r.error.kind == ArityMismatch
    ensures r.Failure? ==> r.error.context == Context(h.parent)
    ensures r.Success? ==> r.value.setArgsCalled && r.value.args == args
    ensures r.Success? ==> r.value.parent == h.parent && r.value.callback == h.callback
  {
    match ValidateCallbackArgs(arity, args)
    case Fail(e) => Failure(Error(e.kind, Context(h.parent)))
    case Pass => Success(h.(setArgsCalled := true, args := args))
  }

  /**
   * One call an author's block makes on a handler: `Handle(cb)`, or an
   * invocation of a binder, which exists only for a function and so
   * carries that function's arity.
   */
  datatype HandlerOp = HandleOp(cb: Callback) | BindOp(arity: nat, args: seq<Any>)

  function Step(h: Handler, op: HandlerOp): Result<Handler>
  {
    match op
    case HandleOp(cb) => SetCallback(h, cb)
    case BindOp(arity, args) => BindArgs(h, arity, args)
  }

  /** The handler after a sequence of calls; the first refused call ends the run. */
  function Replay(h: Handler, ops: seq<HandlerOp>): Result<Handler>
    decreases |ops|
  {
    if ops == [] then Success(h)
    else match Step(h, ops[0])
      case Failure(e) => Failure(e)
      case Success(h') => Replay(h', ops[1..])
  }

  /** Running two sequences of calls one after the other is running their concatenation. */
  lemma {:induction false} ReplayAppend(h: Handler, a: seq<HandlerOp>, b: seq<HandlerOp>)
    requires Replay(h, a).Success?
    ensures Replay(h, a + b) == Replay(Replay(h, a).value, b)
    decreases |a|
  {
    if a == [] {
      assert a + b == b;
    } else {
      assert (a + b)[0] == a[0];
      assert (a + b)[1..] == a[1..] + b;
      ReplayAppend(Step(h, a[0]).value, a[1..], b);
    }
  }

  /** Whether some call of `ops` is a `Handle(...)`. */
  predicate HasHandle(ops: seq<HandlerOp>)
  {
    exists i :: 0 <= i < |ops| && ops[i].HandleOp?
  }

  /** Whether some call of `ops` invokes a binder. */
  predicate HasBind(ops: seq<HandlerOp>)
  {
    exists i :: 0 <= i < |ops| && ops[i].BindOp?
  }

  /** The arguments of the last binder invocation in `ops`, if any. */
  function LastArgs(ops: seq<HandlerOp>): Option<seq<Any>>
    decreases |ops|
  {
    if ops == [] then None
    else match LastArgs(ops[1..])
      case Some(a) => Some(a)
      case None => if ops[0].BindOp? then Some(ops[0].args) else None
  }

  /**
   * Every binder invocation is preceded by a `Handle` of a function of
   * the same arity: the binder only comes into existence that way.
   */
  predicate WellFormed(ops: seq<HandlerOp>)
  {
    forall i :: 0 <= i < |ops| && ops[i].BindOp? ==>
      exists j :: 0 <= j < i && ops[j] == HandleOp(Func(ops[i].arity))
  }

  /**
   * What a run of successful calls leaves behind: the label never
   * changes; a callback is present iff one was there or `Handle`
   * succeeded; the handler is bound iff it was or a binder ran, so
   * `setArgsCalled` never goes back to false; and the stored arguments
   * are those of the last binder invocation.
   */
  lemma {:induction false} ReplayEffect(h: Handler, ops: seq<HandlerOp>)
    requires Replay(h, ops).Success?
    ensures Replay(h, ops).value.parent == h.parent
    ensures Replay(h, ops).value.callback.Some? <==> h.callback.Some? || HasHandle(ops)
    ensures Replay(h, ops).value.setArgsCalled <==> h.setArgsCalled || HasBind(ops)
    ensures Replay(h, ops).value.args == match LastArgs(ops) case Some(a) => a case None => h.args
    decreases |ops|
  {
    if ops != [] {
      var h' := Step(h, ops[0]).value;
      ReplayEffect(h', ops[1..]);
      assert HasHandle(ops) <==> ops[0].HandleOp? || HasHandle(ops[1..]) by {
        if HasHandle(ops) {
          var i :| 0 <= i < |ops| && ops[i].HandleOp?;
          if i > 0 { assert ops[1..][i - 1].HandleOp?; }
        }
        if HasHandle(ops[1..]) {
          var i :| 0 <= i < |ops[1..]| && ops[1..][i].HandleOp?;
          assert ops[i + 1].HandleOp?;
        }
      }
      assert HasBind(ops) <==> ops[0].BindOp? || HasBind(ops[1..]) by {
        if HasBind(ops) {
          var i :| 0 <= i < |ops| && ops[i].BindOp?;
          if i > 0 { assert ops[1..][i - 1].BindOp?; }
        }
        if HasBind(ops[1..]) {
          var i :| 0 <= i < |ops[1..]| && ops[1..][i].BindOp?;
          assert ops[i + 1].BindOp?;
        }
      }
    }
  }

  /** Well-formed runs stay well-formed when put one after the other. */
  lemma WellFormedAppend(a: seq<HandlerOp>, b: seq<HandlerOp>)
    requires WellFormed(a) && WellFormed(b)
    ensures WellFormed(a + b)
  {
    forall i | 0 <= i < |a + b| && (a + b)[i].BindOp?
      ensures exists j :: 0 <= j < i && (a + b)[j] == HandleOp(Func((a + b)[i].arity))
    {
      if i < |a| {
        assert a[i] == (a + b)[i];
        var j :| 0 <= j < i && a[j] == HandleOp(Func(a[i].arity));
        assert (a + b)[j] == a[j];
      } else {
        assert b[i - |a|] == (a + b)[i];
        var j :| 0 <= j < i - |a| && b[j] == HandleOp(Func(b[i - |a|].arity));
        assert (a + b)[j + |a|] == b[j];
      }
    }
  }

  /**
   * A well-formed run of a command block that is not refused never
   * binds arguments without a callback: every binder invocation has a
   * `Handle` before it.
   */
  lemma {:induction false} BindNeedsHandle(ops: seq<HandlerOp>)
    requires WellFormed(ops)
    ensures HasBind(ops) ==> HasHandle(ops)
  {
    if HasBind(ops) {
      var i :| 0 <= i < |ops| && ops[i].BindOp?;
      var j :| 0 <= j < i && ops[j] == HandleOp(Func(ops[i].arity));
      assert ops[j].HandleOp?;
    }
  }

  /**
   * The close-of-command check on a command's fresh handler after a
   * well-formed run of calls: no `Handle` gives MissingHandler, a
   * `Handle` without any binder invocation gives ArgsNotBound, and any
   * binder invocation (even one whose callback was later replaced by a
   * second `Handle`) passes.
   */
  lemma ValidateAfterReplay(parent: string, ops: seq<HandlerOp>)
    requires WellFormed(ops)
    requires Replay(Handler(parent, None, false, []), ops).Success?
    ensures var v := ValidateHandler(Replay(Handler(parent, None, false, []), ops).value);
      && (!HasHandle(ops) ==> v == Fail(Error(MissingHandler, None)))
      && (HasHandle(ops) && !HasBind(ops) ==> v == Fail(Error(ArgsNotBound, None)))
      && (HasBind(ops) ==> v == Pass)
  {
    ReplayEffect(Handler(parent, None, false, []), ops);
    BindNeedsHandle(ops);
  }

  /**
   * A refused call leaves no trace: the run fails with the error of the
   * first refused call, carrying the label when the handler has one.
   */
  lemma {:induction false} ReplayFailureContext(h: Handler, ops: seq<HandlerOp>)
    requires Replay(h, ops).Failure?
    ensures Replay(h, ops).error.kind in {InvalidHandlerKind, ArityMismatch}
    ensures Replay(h, ops).error.context == Context(h.parent)
    decreases |ops|
  {
    match Step(h, ops[0])
    case Failure(e) =>
    case Success(h') => ReplayFailureContext(h', ops[1..]);
  }
}

=== FILE: usage.dfy ===
/**
 * The usage renderer getOptions (cli.go:121-153): one text per flag,
 * then for each sub-command a header and that command's own rendering,
 * all joined with newlines. `Options` is the specification; the method
 * `GetOptions` is the loop the source runs.
 */
module Usage {
  import opened CliTypes

  /** strings.Repeat(" ", n). */
  function Spaces(n: nat): (s: string)
    ensures |s| == n && forall i :: 0 <= i < n ==> s[i] == ' '
  {
    seq(n, _ => ' ')
  }

  predicate NoNewline(s: string)
  {
    forall i :: 0 <= i < |s| ==> s[i] != '\n'
  }

  /** strings.Join(parts, "\n"). */
  function Join(parts: seq<string>): string
    decreases |parts|
  {
    if parts == [] then ""
    else if |parts| == 1 then parts[0]
    else parts[0] + "\n" + Join(parts[1..])
  }

  /** strings.Split(s, "\n"): the pieces between newlines, at least one. */
  function Split(s: string): (r: seq<string>)
    ensures |r| >= 1
    decreases |s|
  {
    if s == [] then [""]
    else
      var rest := Split(s[1..]);
      if s[0] == '\n' then [""] + rest
      else [[s[0]] + rest[0]] + rest[1..]
  }

  /** The text of one flag: cli.go:124-141. */
  function FlagLine(f: Flag): string
  {
    if f.option then
      var head := f.name + " <value> ";
      var tail := match f.defaultValue
        case None => ""
        case Some(v) => "\n" + Spaces(|head|) + "[default: " + v + "]";
      head + f.description + tail
    else
      f.name + " " + f.description
  }

  /** The header line of a sub-command: cli.go:147. */
  function Header(c: Command): string
  {
    c.name + " " + c.description
  }

  function FlagLines(fs: seq<Flag>): seq<string>
  {
    seq(|fs|, i requires 0 <= i < |fs| => FlagLine(fs[i]))
  }

  /** For each sub-command in order: its header, then its own rendering. */
  function CommandLines(cs: seq<Command>): seq<string>
    decreases cs
  {
    if cs == [] then []
    else CommandLines(cs[..|cs| - 1]) + [Header(cs[|cs| - 1]), Options(cs[|cs| - 1])]
  }

  /** The pieces getOptions collects in `lines`. */
  function Lines(cmd: Command): seq<string>
    decreases cmd, 1
  {
    FlagLines(cmd.flags) + CommandLines(cmd.commands)
  }

  /** getOptions(cmd). */
  function Options(cmd: Command): string
    decreases cmd, 2
  {
    Join(Lines(cmd))
  }

  /**
   * getOptions as the source runs it: two loops that append to a local
   * list of lines, a recursive call per sub-command, then the join.
   */
  method GetOptions(cmd: Command) returns (s: string)
    ensures s == Options(cmd)
    decreases cmd
  {
    var lines: seq<string> := [];
    var i := 0;
    while i < |cmd.flags|
      invariant 0 <= i <= |cmd.flags|
      invariant |lines| == i
      invariant forall k :: 0 <= k < i ==> lines[k] == FlagLine(cmd.flags[k])
    {
      var f := cmd.flags[i];
      var line: string;
      if f.option {
        line := f.name + " <value> ";
        var withoutDesc := |line|;
        line := line + f.description;
        if f.defaultValue.Some? {
          line := line + "\n" + Spaces(withoutDesc) + "[default: " + f.defaultValue.value + "]";
        }
      } else {
        line := f.name + " " + f.description;
      }
      lines := lines + [line];
      i := i + 1;
    }
    assert lines == FlagLines(cmd.flags);
    var j := 0;
    while j < |cmd.commands|
      invariant 0 <= j <= |cmd.commands|
      invariant lines == FlagLines(cmd.flags) + CommandLines(cmd.commands[..j])
    {
      var c := cmd.commands[j];
      var sub := GetOptions(c);
      assert cmd.commands[..j + 1][..j] == cmd.commands[..j];
      lines := lines + [c.name + " " + c.description, sub];
      j := j + 1;
    }
    assert cmd.commands[..j] == cmd.commands;
    s := Join(lines);
  }

  /**
   * The pieces of a rendering, position by position: the flags' texts
   * first and in declaration order, then for the j-th sub-command its
   * header at an even offset and its whole rendering, unindented, right
   * after it.
   */
  lemma {:induction false} CommandLinesAt(cs: seq<Command>)
    ensures |CommandLines(cs)| == 2 * |cs|
    ensures forall j :: 0 <= j < |cs| ==>
      CommandLines(cs)[2 * j] == Header(cs[j]) && CommandLines(cs)[2 * j + 1] == Options(cs[j])
    decreases |cs|
  {
    if cs != [] {
      var init := cs[..|cs| - 1];
      CommandLinesAt(init);
      forall j | 0 <= j < |cs| - 1
        ensures CommandLines(cs)[2 * j] == Header(cs[j]) && CommandLines(cs)[2 * j + 1] == Options(cs[j])
      {
        assert init[j] == cs[j];
      }
    }
  }

  lemma LinesAt(cmd: Command)
    ensures |Lines(cmd)| == |cmd.flags| + 2 * |cmd.commands|
    ensures forall k :: 0 <= k < |cmd.flags| ==> Lines(cmd)[k] == FlagLine(cmd.flags[k])
    ensures forall j :: 0 <= j < |cmd.commands| ==>
      Lines(cmd)[|cmd.flags| + 2 * j] == Header(cmd.commands[j]) &&
      Lines(cmd)[|cmd.flags| + 2 * j + 1] == Options(cmd.commands[j])
  {
    CommandLinesAt(cmd.commands);
  }

  lemma {:induction false} SplitNoNewline(a: string)
    requires NoNewline(a)
    ensures Split(a) == [a]
    decreases |a|
  {
    if a != [] {
      SplitNoNewline(a[1..]);
      assert [a[0]] + a[1..] == a;
    }
  }

  lemma {:induction false} SplitAfter(a: string, b: string)
    requires NoNewline(a)
    ensures Split(a + "\n" + b) == [a] + Split(b)
    decreases |a|
  {
    if a == [] {
      assert a + "\n" + b == "\n" + b;
      assert ("\n" + b)[1..] == b;
    } else {
      SplitAfter(a[1..], b);
      assert (a + "\n" + b)[1..] == a[1..] + "\n" + b;
      assert [a[0]] + a[1..] == a;
    }
  }

  /**
   * Splitting at newlines undoes the join, as long as no piece holds a
   * newline itself.
   */
  lemma {:induction false} SplitJoin(parts: seq<string>)
    requires |parts| >= 1
    requires forall k :: 0 <= k < |parts| ==> NoNewline(parts[k])
    ensures Split(Join(parts)) == parts
    decreases |parts|
  {
    if |parts| == 1 {
      SplitNoNewline(parts[0]);
    } else {
      SplitJoin(parts[1..]);
      SplitAfter(parts[0], Join(parts[1..]));
    }
  }

  /**
   * The screen rows of one flag's text: a plain flag is one row
   * `name description`; an option is one row `name <value> description`,
   * followed, when it has a default, by a row that starts with as many
   * spaces as `name <value> ` has characters and then `[default: V]`.
   */
  lemma FlagLineRows(f: Flag)
    requires NoNewline(f.name) && NoNewline(f.description)
    requires f.defaultValue.Some? ==> NoNewline(f.defaultValue.value)
    ensures !f.option ==> Split(FlagLine(f)) == [f.name + " " + f.description]
    ensures f.option && f.defaultValue.None? ==>
      Split(FlagLine(f)) == [f.name + " <value> " + f.description]
    ensures f.option && f.defaultValue.Some? ==>
      Split(FlagLine(f)) ==
        [f.name + " <value> " + f.description,
         Spaces(|f.name| + 9) + "[default: " + f.defaultValue.value + "]"]
  {
    if f.option && f.defaultValue.Some? {
      var first := f.name + " <value> " + f.description;
      var second := Spaces(|f.name| + 9) + "[default: " + f.defaultValue.value + "]";
      assert FlagLine(f) == first + "\n" + second;
      SplitJoin([first, second]);
      assert Join([first, second]) == first + "\n" + second;
    } else if f.option {
      NoNewlineConcat(f.name, " <value> ");
      NoNewlineConcat(f.name + " <value> ", f.description);
      assert FlagLine(f) == f.name + " <value> " + f.description + "";
      assert f.name + " <value> " + f.description + "" == f.name + " <value> " + f.description;
      SplitNoNewline(FlagLine(f));
    } else {
      NoNewlineConcat(f.name, " ");
      NoNewlineConcat(f.name + " ", f.description);
      SplitNoNewline(FlagLine(f));
    }
  }

  lemma NoNewlineConcat(a: string, b: string)
    requires NoNewline(a) && NoNewline(b)
    ensures NoNewline(a + b)
  {
    forall i | 0 <= i < |a + b|
      ensures (a + b)[i] != '\n'
    {
      if i >= |a| { assert (a + b)[i] == b[i - |a|]; }
    }
  }
}
